=== FILE: README.md ===
# InnoClinic ProfilesAPI: a Dafny model of the profile core

This project models the core of the InnoClinic profiles service: the part that validates
profile requests, stores doctor, patient and receptionist profiles, runs the service
operations on them, and keeps doctors' statuses in step with office and specialization
events. It is written as immutable datatypes and pure functions, and it proves properties
of them.

- **Guids** (`guids.dfy`). A GUID is a 128-bit value. `Guid.Empty` is 0. `Format` writes
  the .NET "D" text (`xxxxxxxx-xxxx-xxxx-xxxx-xxxxxxxxxxxx`, lower-case hex) and `Parse`
  reads it back. The validators' `ValidateGuid` overloads are cheap predicates, and lemmas
  tie them to the `TryParse(ToString())` test the source performs.
- **Text** (`text.dfy`). A nullable C# string is `Option<string>`. `string.Length` counts
  UTF-16 code units. FluentValidation's `NotEmpty()` and `Length(min, max)` are written out,
  and so is the full `char.IsWhiteSpace` set.
- **Entities, Contracts** (`entities.dfy`, `contracts.dfy`).
  - `UserProfile` and its `Doctor`, `Patient` and `Receptionist` subclasses become one
    tagged union.
  - `DoctorStatus` has seven members. A doctor stores its status as a raw integer, because a
    C# enum field can hold any value.
  - The request DTOs are plain records.
- **Validation** (`validation.dfy`, `creation_validators.dfy`, `update_validators.dfy`).
  - Each `RuleFor` chain is a `RuleOutcome` (a property and whether its rule fails).
  - A validator's result is the set of properties whose rule failed.
  - A derived validator is its base's rule list followed by its own.
- **Store** (`profile_store.dfy`). The repositories become one map from id to profile.
  - `GetAll` and `GetById` filter by kind, as `OfType<T>()` does.
  - `Add`, `Update` and `Remove` fail with a key conflict on a key clash or a missing row,
    two of the cases where EF's `SaveChangesAsync` would throw.
- **Services** (`service_results.dfy`, `patient_service.dfy`, `receptionist_service.dfy`,
  `doctor_service.dfy`).
  - Each operation is a function from a store to a `Result`.
  - The order is the source's: validate, look up, copy, commit.
  - The clock's year, `AllowedAge.Max` and the id the database generates are parameters.
- **Status sync** (`status_sync.dfy`). `NotificationCreatedConsumer.Consume` (an
  `IConsumer<OfficeStatusChanged>`) and
  `RabbitMQServicesMessageHandler.HandleMessage` become `Apply` on an already-decoded
  message. `ConsumeStatusEvent` is the loop over the listed doctors.
- **Scenarios** (`scenarios.dfy`). The validator test records, with exactly the set of
  properties each validator reports for them.

## Model

| member | source | states |
|---|---|---|
| Guids.ParseFormat | Core/Services/FluentValidation/Validators/CreateDto/ProfileCreationDtoValidator.cs:22 | `Guid.TryParse` of any GUID's own "D" text succeeds and returns that same GUID |
| Guids.ValidateGuidIsTryParse | Core/Services/FluentValidation/Validators/CreateDto/ProfileCreationDtoValidator.cs:30-40 | the non-nullable `ValidateGuid` is true exactly when the id is not `Guid.Empty`; its `TryParse` branch never fails |
| Guids.ValidateNullableGuidIsTryParse | Core/Services/FluentValidation/Validators/CreateDto/ProfileCreationDtoValidator.cs:18-28 | the nullable overload is false for null (`TryParse("")` fails) and otherwise true exactly when the id is not empty |
| Entities.StatusOf | Core/Services/DoctorService.cs:66 | `Enum.IsDefined` holds exactly for the values 0 to 6, and then names the member with that underlying value |
| Entities.StatusValueRoundTrip | Core/Domain/Entities/DoctorStatus.cs:3-12 | every `DoctorStatus` member is recovered from its underlying value, so the seven values are distinct |
| Validation.ViolationsOfLayers | Core/Services/FluentValidation/Validators/CreateDto/PatientCreationDtoValidator.cs:6 | a derived validator reports the union of the violations of the base rules and of its own rules |
| Validation.LayeredViolations | Core/Services/FluentValidation/Validators/CreateDto/ReceptionistCreationDtoValidator.cs:6-10 | when the added rules name properties the base never names, the derived validator agrees with the added rules on those properties and with the base elsewhere |
| Validation.FirstFailure | Core/Services/FluentValidation/Validators/UpdateDto/ProfileUpdateDtoValidator.cs:10 | under `CascadeMode.Stop` at most one property is reported |
| Validation.CascadeModeKeepsValidity | Core/Services/FluentValidation/Validators/UpdateDto/ProfileUpdateDtoValidator.cs:10 | stopping at the first failing rule reports a subset of the full evaluation, and nothing exactly when the full evaluation reports nothing |
| CreationValidators.ValidateProfileCreation | Core/Services/FluentValidation/Validators/CreateDto/ProfileCreationDtoValidator.cs:11-15 | Name and LastName fail when null, blank or outside 2..1024 UTF-16 units; a non-null MiddleName (even "") fails outside 2..1024; AccountId and PhotoId fail exactly when present and empty; no other property is reported |
| CreationValidators.PatientCreationLayer | Core/Services/FluentValidation/Validators/CreateDto/PatientCreationDtoValidator.cs:10-16 | the patient rules on their own: the repeated account rule, the link rule, and the age rule with both ends inclusive |
| CreationValidators.ValidatePatientCreation | Core/Services/FluentValidation/Validators/CreateDto/PatientCreationDtoValidator.cs:10-16 | IsLinkedToAccount fails exactly when the flag differs from "an account id is present"; DateOfBirth fails exactly when the year is outside [year − AllowedAge.Max, year]; every other property is reported exactly as the base validator reports it |
| CreationValidators.ValidateReceptionistCreation | Core/Services/FluentValidation/Validators/CreateDto/ReceptionistCreationDtoValidator.cs:10 | OfficeId fails exactly when it is `Guid.Empty`; every other property is reported exactly as the base validator reports it, with no age or link rule |
| UpdateValidators.ValidateProfileUpdate | Core/Services/FluentValidation/Validators/UpdateDto/ProfileUpdateDtoValidator.cs:11-14 | the update base: the same name rules; MiddleName fails only when non-empty and outside 2..1024; PhotoId fails exactly when present and empty; there is no AccountId rule |
| UpdateValidators.ValidateDoctorUpdate | Core/Services/FluentValidation/Validators/UpdateDto/DoctorUpdateDtoValidator.cs:10-13 | DateOfBirth fails exactly when the year is outside (year − 130, year]; SpecializationId and OfficeId fail exactly when empty; CareerStartYear fails exactly when below birth year + 18 (equality passes); the base properties are as the update base reports them |
| UpdateValidators.ValidatePatientUpdate | Core/Services/FluentValidation/Validators/UpdateDto/PatientUpdateDtoValidator.cs:10 | DateOfBirth fails exactly when outside (year − 130, year]; everything else is as the update base reports it, with no account or link rule |
| UpdateValidators.ValidateReceptionistUpdate | Core/Services/FluentValidation/Validators/UpdateDto/ReceptionistUpdateDtoValidator.cs:10 | OfficeId fails exactly when empty; everything else is as the update base reports it, with no age rule |
| UpdateValidators.StopAtFirstFailureKeepsValidity | Core/Services/FluentValidation/Validators/UpdateDto/ProfileUpdateDtoValidator.cs:10-14 | for the doctor, patient and receptionist update validators, `CascadeMode.Stop` accepts exactly the requests that full evaluation accepts |
| UpdateValidators.CreationAndUpdateDiffer | Core/Services/FluentValidation/Validators/UpdateDto/ProfileUpdateDtoValidator.cs:40-51 | "" as middle name fails on creation and passes on update; someone exactly 130 years old passes the creation age rule (when AllowedAge.Max ≥ 130) but never the update one |
| UpdateValidators.MiddleNameRulesAgreeExceptEmpty | Core/Services/FluentValidation/Validators/UpdateDto/ProfileUpdateDtoValidator.cs:13 | the creation and update middle-name rules disagree on "" and on nothing else |
| UpdateValidators.UpdateAgeWithinCreationAge | Core/Services/FluentValidation/Validators/UpdateDto/ProfileUpdateDtoValidator.cs:45 | every birth year the update age rule accepts is accepted on creation whenever AllowedAge.Max ≥ 129 |
| ProfileStore.GetAll | Infrastructure/Persistence/Repositories/PatientRepository.cs:12-15 | exactly the stored profiles of the requested kind, each with the value stored under its id, and never one of another kind |
| ProfileStore.GetById | Infrastructure/Persistence/Repositories/PatientRepository.cs:17-20 | found exactly when a profile of that kind has that id (a doctor's id gives nothing for patients), and it is that profile |
| ProfileStore.GetByIdIsSearch | Infrastructure/Persistence/Repositories/DoctorRepository.cs:19 | the lookup agrees with `FirstOrDefault(x => x.Id == id)` over the profiles of that kind |
| ProfileStore.GetAllAgreesWithGetById | Infrastructure/Persistence/Repositories/ReceptionistRepository.cs:12-19 | an id is listed by `GetAll` exactly when `GetById` finds it, with the same profile |
| ProfileStore.Add | Infrastructure/Persistence/Repositories/PatientRepository.cs:27-30 | for a non-empty id, refused exactly when the id is taken; otherwise the new profile is retrievable and every other row is unchanged |
| ProfileStore.Update | Infrastructure/Persistence/Repositories/PatientRepository.cs:22-25 | for a non-empty id, refused exactly when no profile of that kind has the id; otherwise `GetById` returns the new fields and every other row is unchanged |
| ProfileStore.Remove | Infrastructure/Persistence/Repositories/PatientRepository.cs:32-35 | refused exactly when no profile of that kind has the id; otherwise that row is gone and every remaining row is unchanged |
| ProfileStore.ChangesKeepWellKeyed | Infrastructure/Persistence/Repositories/ReceptionistRepository.cs:20-33 | every accepted change keeps each profile stored under its own id |
| ProfileStore.AddCounts | Infrastructure/Persistence/Repositories/DoctorRepository.cs:27-30 | an accepted add grows the count of the added kind by one and leaves the other counts alone |
| ProfileStore.UpdateCounts | Infrastructure/Persistence/Repositories/DoctorRepository.cs:22-25 | an accepted update changes no kind's count |
| ProfileStore.RemoveCounts | Infrastructure/Persistence/Repositories/ReceptionistRepository.cs:30-33 | an accepted remove shrinks the count of the removed kind by one and leaves the other counts alone |
| ProfileStore.DoctorCountNeverDecreases | Infrastructure/Persistence/Repositories/DoctorRepository.cs:7-31 | no store operation lowers the number of doctors, since a doctor can never be removed |
| ServiceResults.Validate | Core/Services/FluentValidation/FluentValidationExtensions.cs:7-15 | `ValidateAndThrowCustom` throws exactly when the violation set is non-empty, and carries that set |
| ServiceResults.Commit | Core/Services/PatientService.cs:44 | a refused change surfaces as a conflict on the same id; an accepted one yields the changed store |
| PatientService.PatientFromCreation | Core/Services/Automapper/Profiles/PatientProfile.cs:11 | the created patient gets the new id and every field of the request: names, account id, photo id, link flag and date of birth |
| PatientService.ApplyPatientUpdate | Core/Services/PatientService.cs:55 | the patient takes the request's name, last name, middle name, photo id and date of birth, and keeps its id, account id and link flag: every field is accounted for |
| PatientService.GetPatient | Core/Services/PatientService.cs:29-38 | NotFound exactly when no patient has the id; otherwise that patient |
| PatientService.CreatePatient | Core/Services/PatientService.cs:39-46 | an invalid request gives ValidationFailed with the validator's set; otherwise exactly one patient carrying the request's fields is added under the new id, the patient count grows by one, and its link is consistent |
| PatientService.UpdatePatient | Core/Services/PatientService.cs:47-57 | validation comes before the lookup, so an invalid request with an unknown id gives ValidationFailed; a valid one with an unknown id gives NotFound; otherwise only the target row changes |
| PatientService.LinkUserProfileToAccount | Core/Services/PatientService.cs:58-68 | no validation; NotFound exactly for an unknown id; otherwise the account id is set, the flag raised, and the link is consistent |
| PatientService.DeletePatient | Core/Services/PatientService.cs:69-78 | NotFound exactly for an unknown id; otherwise only that patient is removed, the count drops by one and a later lookup gives NotFound |
| PatientService.PatientOperationsKeepLinks | Core/Services/PatientService.cs:39-78 | if every stored patient's flag matches whether it has an account, every successful patient operation keeps it so |
| PatientService.LinkIdempotent | Core/Services/PatientService.cs:65-66 | linking the same account twice leaves the store as linking it once |
| ReceptionistService.ReceptionistFromCreation | Core/Services/Automapper/Profiles/ReceptionistProfile.cs:11 | the created receptionist gets the new id and every field of the request: names, account id, photo id and office id |
| ReceptionistService.ApplyReceptionistUpdate | Core/Services/ReceptionistService.cs:59 | the receptionist takes the request's names, photo id and office id, and keeps its id and account id: every field is accounted for |
| ReceptionistService.GetReceptionist | Core/Services/ReceptionistService.cs:31-40 | NotFound exactly when no receptionist has the id; otherwise that receptionist |
| ReceptionistService.CreateReceptionist | Core/Services/ReceptionistService.cs:42-49 | an invalid request gives ValidationFailed; otherwise one receptionist equal to the request is added under the new id, with a non-empty office, and existing rows are unchanged |
| ReceptionistService.UpdateReceptionist | Core/Services/ReceptionistService.cs:51-61 | validation before lookup; NotFound for an unknown id; otherwise only the target changes and its office is the request's non-empty office |
| ReceptionistService.DeleteReceptionist | Core/Services/ReceptionistService.cs:63-72 | NotFound exactly for an unknown id; otherwise only that receptionist is removed and the count drops by one |
| DoctorService.DoctorFromCreation | Core/Services/Automapper/Profiles/DoctorProfile.cs:11 | the created doctor gets the new id, the status the request asked for and every other field of the request |
| DoctorService.ApplyDoctorUpdate | Core/Services/DoctorService.cs:60 | the doctor takes the request's names, photo id, date of birth, specialization, office and career start year, and keeps its id, account id and status, which the update request does not carry |
| DoctorService.GetDoctor | Core/Services/DoctorService.cs:32-41 | NotFound exactly when no doctor has the id; otherwise that doctor |
| DoctorService.CreateDoctor | Core/Services/DoctorService.cs:43-50 | a non-empty violation set gives ValidationFailed; otherwise one doctor with the request's fields and status is added and the doctor count grows by one |
| DoctorService.CreateDoctorAsWritten | Infrastructure/Persistence/Configurations/DoctorProfileConfiguration.cs:17 | creation through a store that applies the `AtWork` column default: it succeeds exactly when `CreateDoctor` does, adds only the created doctor under the new id, and that doctor carries every field of the request except possibly its status |
| DoctorService.InactiveDoctorCreatedAtWork | Infrastructure/Persistence/Configurations/DoctorProfileConfiguration.cs:17 | the stored status differs from the requested one exactly when `Inactive` was requested, and is then `AtWork` |
| DoctorService.UpdateDoctor | Core/Services/DoctorService.cs:52-62 | validation before lookup; NotFound for an unknown id; otherwise only the target changes, its status is kept, and its career starts at least 18 years after its birth year |
| DoctorService.ChangeDoctorStatus | Core/Services/DoctorService.cs:64-77 | a value outside 0..6 gives ValidationFailed naming no property (the exception carries a message only) before any lookup; a defined value with an unknown id gives NotFound; otherwise only the target's status changes, to exactly that value |
| DoctorService.ChangeDoctorStatusIdempotent | Core/Services/DoctorService.cs:75 | setting the same status twice equals setting it once |
| DoctorService.EveryStatusReachable | Core/Services/DoctorService.cs:66-76 | from any status a doctor can be moved to any other: there is no transition graph |
| DoctorService.DoctorServiceKeepsDoctors | Core/Services/DoctorService.cs:52-77 | updating a doctor or changing its status never changes the number of doctors |
| Entities.WithStatus | Core/Services/DoctorService.cs:75 | `doctor.Status = status`: the result is a doctor with exactly the given status and every other field (id, names, account, photo, date of birth, specialization, office, career start) unchanged |
| StatusSync.Apply | Infrastructure/MessageBus/RabbitMQServicesMessageHandler.cs:22-31 | every doctor the message matches ends `AtWork` when active and `Inactive` otherwise, with only its status changed; every other profile is unchanged; the ids are the same |
| StatusSync.ConsumeStatusEvent | Infrastructure/MessageBus/OfficeStatusChangedConsumer.cs:19-33 | walking the listed doctors in any order and updating each matching one yields `Apply` |
| StatusSync.ApplyKeepsMatches | Infrastructure/MessageBus/OfficeStatusChangedConsumer.cs:26-28 | a message never changes which doctors any message matches |
| StatusSync.ApplyIdempotent | Infrastructure/MessageBus/RabbitMQServicesMessageHandler.cs:22-32 | delivering the same message twice equals delivering it once |
| StatusSync.ApplyWithoutMatch | Infrastructure/MessageBus/OfficeStatusChangedConsumer.cs:24-32 | a message that matches no doctor leaves the store unchanged |
| StatusSync.CommuteIff | Infrastructure/MessageBus/RabbitMQServicesMessageHandler.cs:27 | two messages commute exactly when every doctor both match is sent to the same status by both |
| StatusSync.DifferentIdsCommute | Infrastructure/MessageBus/OfficeStatusChangedConsumer.cs:26 | messages about two different offices, or two different specializations, always commute |
| StatusSync.LastMessageWins | Infrastructure/MessageBus/RabbitMQServicesMessageHandler.cs:27 | when two messages hit the same doctor, the later one decides its status |
| StatusSync.OfficeAndSpecializationDoNotCommute | Infrastructure/MessageBus/RabbitMQServicesMessageHandler.cs:25-28 | an office activation and a specialization deactivation that share a doctor give different stores in the two orders |
| StatusSync.ApplyKeepsStore | Infrastructure/MessageBus/OfficeStatusChangedConsumer.cs:29 | a message keeps every profile under its own id and changes no kind's count |
| Scenarios.PatientCreationValidModel | Tests/Core.Services/FluentValidation/Validators/CreateDto/PatientCreationDtoValidatorTests.cs:16-30 | a patient with plain names, non-empty ids, the flag raised and born 50 years ago has no violations |
| Scenarios.PatientCreationInvalidModel | Tests/Core.Services/FluentValidation/Validators/CreateDto/PatientCreationDtoValidatorTests.cs:33-53 | the all-invalid patient is reported on all seven properties, the link flag among them |
| Scenarios.PatientCreationLinkMismatch | Tests/Core.Services/FluentValidation/Validators/CreateDto/PatientCreationDtoValidatorTests.cs:56-103 | an account id with the flag lowered, or no account id with the flag raised, is reported on IsLinkedToAccount alone |
| Scenarios.PatientCreationEmptyAccountLinked | Core/Services/FluentValidation/Validators/CreateDto/PatientCreationDtoValidator.cs:10-12 | an empty account id with the flag raised passes the link rule and is reported on AccountId alone |
| Scenarios.ReceptionistCreationScenarios | Tests/Core.Services/FluentValidation/Validators/CreateDto/ReceptionistCreationDtoValidatorTests.cs:16-50 | the valid receptionist has no violations; the all-invalid one is reported on all six properties |
| Scenarios.DoctorUpdateValidModel | Tests/Core.Services/FluentValidation/Validators/UpdateDto/DoctorUpdateDtoValidatorTests.cs:17-32 | a doctor with plain names and non-empty ids, born 50 years ago and starting work 20 years ago, has no violations |
| Scenarios.DoctorUpdateInvalidModel | Tests/Core.Services/FluentValidation/Validators/UpdateDto/DoctorUpdateDtoValidatorTests.cs:35-58 | the all-invalid doctor is reported on all eight properties |
| Scenarios.DoctorUpdateCareerBeforeBirth | Tests/Core.Services/FluentValidation/Validators/UpdateDto/DoctorUpdateDtoValidatorTests.cs:61-84 | born 50 years ago and starting work 51 years ago is reported on CareerStartYear alone |
| Scenarios.PatientUpdateValidModel | Tests/Core.Services/FluentValidation/Validators/UpdateDto/PatientUpdateDtoValidatorTests.cs:16-28 | the valid patient update has no violations |
| Scenarios.ReceptionistUpdateScenarios | Tests/Core.Services/FluentValidation/Validators/UpdateDto/ReceptionistUpdateDtoValidatorTests.cs:16-47 | the valid receptionist update has no violations; the all-invalid one is reported on all five properties |

## Findings

| source | as written | input that shows it | evidently intended | confidence | as-written member | corrected member |
|---|---|---|---|---|---|---|
| Infrastructure/Persistence/Configurations/DoctorProfileConfiguration.cs:17 | `Status` has `HasDefaultValue(AtWork)`. EF leaves a property holding its CLR default out of an INSERT, and the CLR default of `DoctorStatus` is `Inactive` (0). | a valid `DoctorForCreationDto` with an explicit `Status = Inactive` is stored with status `AtWork` | `AtWork` as the default for a request that omits `Status` is by design, and it is what the column default achieves, since the non-nullable `Status` of `DoctorForCreationDto` reads 0 both when omitted and when `Inactive` is sent; the discrepancy is only that an explicit `Inactive` request cannot be honoured | medium; follows from EF Core's documented default-value handling on relational providers; not executed | DoctorService.CreateDoctorAsWritten, DoctorService.InactiveDoctorCreatedAtWork | DoctorService.CreateDoctor |

## Left out

- Tests/Core.Services/FluentValidation/Validators/CreateDto/DoctorCreationDtoValidatorTests.cs targets a doctor creation validator whose source is not part of this model. `DoctorService.CreateDoctor` therefore takes that validator's violation set as a parameter.
- The AutoMapper profiles map by property name. They are written out as field-copy functions such as `PatientFromCreation` and `ApplyPatientUpdate`.
- The fields of the receptionist entity and of the patient, receptionist and base update DTOs are inferred from the validators, tests and mappings that use them, because those classes are not part of this model.
- The repository fetches are async and take cancellation tokens; the model is synchronous. Commit is the end of a pure function, so concurrent requests and last-write-wins races are out.
- The services' `GetAllAsync`, and the response mapping, are not modelled separately: each only maps `ProfileStore.GetAll` to response records.
- `ProfileStore.GetAll` returns a map. The order in which EF lists rows is left open, and `StatusSync.ConsumeStatusEvent` is proved for every order.
- Message decoding is out: the bytes and JSON in `HandleMessage`, and the serialize-then-deserialize hop in `Consume`. Events are taken as already-decoded `{Id, IsActive}` values. `Console.WriteLine`, broker connections and consumer registration are out too.
- The event publishing that the service tests expect (a `DoctorNameChanged` publish endpoint) is absent from the modelled `DoctorService`, so it is not modelled.
- ProfileStore.Update, ProfileStore.Add: EF's key generation for an id of `Guid.Empty` is not modelled. `Id` is `ValueGeneratedOnAdd` (Infrastructure/Persistence/Configurations/UserProfileConfiguration.cs:13), so EF treats `Guid.Empty` as an unset key: `Update` would insert such a profile under a generated key where the model refuses it, and `Add` would generate a key where the model stores the profile under `Guid.Empty`. No modelled service reaches either case, because updates pass rows already loaded from the store and creation receives the generated id as its `newId` parameter.
- The unique indexes on AccountId and PhotoId are not modelled. The services do not enforce them, so no uniqueness claim is made.
- The `AtWork` column default is modelled only in `DoctorService.CreateDoctorAsWritten`; see the finding above.
- DoctorService.CreateDoctor: stores `Inactive` (0) for a request that omits `Status`, where the relational program stores `AtWork` through the column default; the model cannot tell an omitted status from an explicit `Inactive`, and keeps the requested value in both cases.
- The clock is a parameter. Creation reads `DateTime.UtcNow` and update reads `DateTime.Now`, and the model gives both the same `currentYear`. Around New Year the two years can differ; that case is not modelled.
- `AllowedAge.Max` is not part of this model; it is the `maxAge` parameter.
- Error codes and messages are not modelled: a violation is its property name. The patient creation validator's repeated AccountId rule can only repeat a violation the base already reports, and the set hides the repetition.
- HTTP status mapping is out. The exception middleware turns ValidationFailed and Conflict into 400 and NotFound into 404.
- `Guid.TryParse` accepts other text layouts (braces, parentheses, no hyphens). Only the "D" layout that `Guid.ToString()` produces is modelled, since that is the only text the validators parse.
- Controllers, authorization policies, Swagger, JWT and startup code are adapters with no logic to verify.
- The `ValidatorManager`, `ServiceManager` and `RepositoryManager` facades are construction plumbing.
- EF configuration and the DateOnly converter are store-side details. Apart from `Status`, the model reads only the year of a date.
- Validators: `ClassLevelCascadeMode = CascadeMode.Stop` is set on the update base. The validator tests expect every failing property to be reported, so the update validators evaluate every rule. `UpdateValidators.StopAtFirstFailureKeepsValidity` shows that stopping at the first failure accepts the same requests.

=== FILE: contracts.dfy ===
/** The request records the services accept (the `*ForCreationDto` and `*ForUpdateDto` classes). */
module Contracts {
  import opened Wrappers
  import opened Guids
  import opened Text
  import opened Entities

  /** Fields common to every creation request (`ProfileForCreationDto`). */
  datatype ProfileForCreation = ProfileForCreation(
    name: Text, lastName: Text, middleName: Text, accountId: Option<Guid>, photoId: Option<Guid>)

  datatype PatientForCreation = PatientForCreation(
    profile: ProfileForCreation, isLinkedToAccount: bool, dateOfBirth: Date)

  datatype ReceptionistForCreation = ReceptionistForCreation(
    profile: ProfileForCreation, officeId: Guid)

  /** `status` is the raw enum value the client sent, defined or not. */
  datatype DoctorForCreation = DoctorForCreation(
    profile: ProfileForCreation, dateOfBirth: Date, specializationId: Guid, officeId: Guid,
    careerStartYear: int, status: int)

  /** Fields common to every update request (`ProfileForUpdateDto`): no account reference. */
  datatype ProfileForUpdate = ProfileForUpdate(
    name: Text, lastName: Text, middleName: Text, photoId: Option<Guid>)

  datatype PatientForUpdate = PatientForUpdate(profile: ProfileForUpdate, dateOfBirth: Date)

  datatype ReceptionistForUpdate = ReceptionistForUpdate(profile: ProfileForUpdate, officeId: Guid)

  /** No `status`: an update never carries one. */
  datatype DoctorForUpdate = DoctorForUpdate(
    profile: ProfileForUpdate, dateOfBirth: Date, specializationId: Guid, officeId: Guid,
    careerStartYear: int)
}

=== FILE: creation_validators.dfy ===
/**
  The creation-path validators: a base rule set shared by every profile kind
  (`ProfileCreationDtoValidator`) and the patient and receptionist layers on top of it.
  The clock and the unseen `AllowedAge.Max` constant are parameters. Every rule is
  evaluated, so a validator's result is the union of its rules' violations.
 */
module CreationValidators {
  import opened Wrappers
  import opened Guids
  import opened Text
  import opened Entities
  import opened Contracts
  import opened Validation

  /** `NotEmpty().Length(2, 1024)`, the rule on the first and last name. */
  predicate RequiredNameFails(t: Text) {
    !NotEmpty(t) || !LengthWithin(t, 2, 1024)
  }

  /** `Length(2, 1024).Unless(name is null)`, the creation rule on the middle name. */
  predicate MiddleNameFails(t: Text) {
    t.Some? && !LengthWithin(t, 2, 1024)
  }

  /** `Must(ValidateGuid).Unless(id is null)`, the rule on an optional reference. */
  predicate OptionalGuidFails(g: Option<Guid>) {
    g.Some? && !ValidateNullableGuid(g)
  }

  /** `BeAValidAge` of the creation path. */
  predicate BeAValidAge(d: Date, currentYear: int, maxAge: int) {
    d.year <= currentYear && d.year >= currentYear - maxAge
  }

  /** The five rules of `ProfileCreationDtoValidator`, in declaration order. */
  function ProfileCreationRules(p: ProfileForCreation): seq<RuleOutcome> {
    [ RuleOutcome(Name, RequiredNameFails(p.name)),
      RuleOutcome(LastName, RequiredNameFails(p.lastName)),
      RuleOutcome(MiddleName, MiddleNameFails(p.middleName)),
      RuleOutcome(AccountId, OptionalGuidFails(p.accountId)),
      RuleOutcome(PhotoId, OptionalGuidFails(p.photoId)) ]
  }

  function ValidateProfileCreation(p: ProfileForCreation): (r: set<Field>)
    ensures Name in r <==> p.name.None? || IsNullOrWhiteSpace(p.name) || !(2 <= Utf16Length(p.name.value) <= 1024)
    ensures LastName in r <==> p.lastName.None? || IsNullOrWhiteSpace(p.lastName) || !(2 <= Utf16Length(p.lastName.value) <= 1024)
    ensures MiddleName in r <==> p.middleName.Some? && !(2 <= Utf16Length(p.middleName.value) <= 1024)
    ensures AccountId in r <==> p.accountId == Some(Empty)
    ensures PhotoId in r <==> p.photoId == Some(Empty)
    ensures r <= {Name, LastName, MiddleName, AccountId, PhotoId}
  {
    var rules := ProfileCreationRules(p);
    ViolatedIff(rules, 0);
    ViolatedIff(rules, 1);
    ViolatedIff(rules, 2);
    ViolatedIff(rules, 3);
    ViolatedIff(rules, 4);
    ViolationsNamed(rules);
    Violations(rules)
  }

  /** The base validator is exactly its rule list, and reports only base fields. */
  lemma ProfileCreationIsRules(p: ProfileForCreation)
    ensures ValidateProfileCreation(p) == Violations(ProfileCreationRules(p))
    ensures Violations(ProfileCreationRules(p)) <= {Name, LastName, MiddleName, AccountId, PhotoId}
  {
  }

  /** The account-link rule: `Equal(true)` when an account id is given, `Equal(false)` when it is null. */
  predicate AccountLinkFails(dto: PatientForCreation) {
    (dto.profile.accountId.Some? && dto.isLinkedToAccount != true)
    || (dto.profile.accountId.None? && dto.isLinkedToAccount != false)
  }

  /** The rules `PatientCreationDtoValidator` adds: the account rule again, the account-link rule and the age rule. */
  function PatientCreationRules(dto: PatientForCreation, currentYear: int, maxAge: int): seq<RuleOutcome> {
    [ RuleOutcome(AccountId, OptionalGuidFails(dto.profile.accountId)),
      RuleOutcome(IsLinkedToAccount, AccountLinkFails(dto)),
      RuleOutcome(DateOfBirth, !BeAValidAge(dto.dateOfBirth, currentYear, maxAge)) ]
  }

  /** What the patient rules report on their own. */
  lemma PatientCreationLayer(dto: PatientForCreation, currentYear: int, maxAge: int)
    ensures var added := Violations(PatientCreationRules(dto, currentYear, maxAge));
      && (IsLinkedToAccount in added <==> AccountLinkFails(dto))
      && (DateOfBirth in added <==> !BeAValidAge(dto.dateOfBirth, currentYear, maxAge))
      && (AccountId in added <==> OptionalGuidFails(dto.profile.accountId))
      && added <= {AccountId, IsLinkedToAccount, DateOfBirth}
  {
    var layer := PatientCreationRules(dto, currentYear, maxAge);
    ViolatedIff(layer, 0);
    ViolatedIff(layer, 1);
    ViolatedIff(layer, 2);
    ViolationsNamed(layer);
    assert Fields(layer) == {AccountId, IsLinkedToAccount, DateOfBirth};
  }

  /**
    `PatientCreationDtoValidator`: the base rules followed by the patient rules. The repeated
    account rule can only repeat a violation the base already reports.
   */
  function ValidatePatientCreation(dto: PatientForCreation, currentYear: int, maxAge: int): (r: set<Field>)
    ensures IsLinkedToAccount in r <==> dto.isLinkedToAccount != dto.profile.accountId.Some?
    ensures DateOfBirth in r <==> !(currentYear - maxAge <= dto.dateOfBirth.year <= currentYear)
    ensures r - {IsLinkedToAccount, DateOfBirth} == ValidateProfileCreation(dto.profile)
  {
    var rules := ProfileCreationRules(dto.profile);
    var layer := PatientCreationRules(dto, currentYear, maxAge);
    PatientCreationLayer(dto, currentYear, maxAge);
    ViolationsOfLayers(rules, layer);
    ProfileCreationIsRules(dto.profile);
    assert AccountId in Violations(layer) ==> AccountId in Violations(rules);
    Violations(rules + layer)
  }

  /** The rule `ReceptionistCreationDtoValidator` adds: `NotNull().Must(ValidateGuid)` on the office. */
  function ReceptionistCreationRules(dto: ReceptionistForCreation): seq<RuleOutcome> {
    [ RuleOutcome(OfficeId, !ValidateGuid(dto.officeId)) ]
  }

  lemma ReceptionistCreationLayer(dto: ReceptionistForCreation)
    ensures Violations(ReceptionistCreationRules(dto)) == if dto.officeId == Empty then {OfficeId} else {}
  {
    var layer := ReceptionistCreationRules(dto);
    assert layer[1..] == [];
  }

  /** `ReceptionistCreationDtoValidator`: the base rules followed by the office rule. */
  function ValidateReceptionistCreation(dto: ReceptionistForCreation): (r: set<Field>)
    ensures OfficeId in r <==> dto.officeId == Empty
    ensures r - {OfficeId} == ValidateProfileCreation(dto.profile)
  {
    var rules := ProfileCreationRules(dto.profile);
    var layer := ReceptionistCreationRules(dto);
    ReceptionistCreationLayer(dto);
    ProfileCreationIsRules(dto.profile);
    LayeredViolations(rules, layer, {OfficeId});
    Violations(rules + layer)
  }
}

=== FILE: doctor_service.dfy ===
/**
  `DoctorService`: validate, look up, copy fields, commit, in that order; the first step
  that fails decides the error. The doctor creation validator is not part of this model:
  creation takes the set of properties it reports as a parameter.
 */
module DoctorService {
  import opened Wrappers
  import opened Guids
  import opened Entities
  import opened Contracts
  import opened Validation
  import opened UpdateValidators
  import opened ProfileStore
  import opened ServiceResults

  /** The mapping `DoctorForCreationDto -> Doctor`, the row getting the generated id. */
  function DoctorFromCreation(dto: DoctorForCreation, id: Guid): (p: Profile)
    ensures p.Doctor? && p.id == id && p.status == dto.status
    ensures p.name == dto.profile.name && p.lastName == dto.profile.lastName
    ensures p.middleName == dto.profile.middleName && p.photoId == dto.profile.photoId
    ensures p.accountId == dto.profile.accountId && p.dateOfBirth == dto.dateOfBirth
    ensures p.specializationId == dto.specializationId && p.officeId == dto.officeId
    ensures p.careerStartYear == dto.careerStartYear
  {
    Doctor(id, dto.profile.name, dto.profile.lastName, dto.profile.middleName,
           dto.profile.accountId, dto.profile.photoId, dto.dateOfBirth,
           dto.specializationId, dto.officeId, dto.careerStartYear, dto.status)
  }

  /** The mapping `DoctorForUpdateDto -> Doctor` onto a stored doctor: the request carries no status. */
  function ApplyDoctorUpdate(p: Profile, dto: DoctorForUpdate): (q: Profile)
    requires p.Doctor?
    ensures q.Doctor? && q.id == p.id && q.accountId == p.accountId && q.status == p.status
    ensures q.name == dto.profile.name && q.lastName == dto.profile.lastName
    ensures q.middleName == dto.profile.middleName && q.photoId == dto.profile.photoId
    ensures q.dateOfBirth == dto.dateOfBirth && q.specializationId == dto.specializationId
    ensures q.officeId == dto.officeId && q.careerStartYear == dto.careerStartYear
  {
    Doctor(p.id, dto.profile.name, dto.profile.lastName, dto.profile.middleName,
           p.accountId, dto.profile.photoId, dto.dateOfBirth,
           dto.specializationId, dto.officeId, dto.careerStartYear, p.status)
  }

  /** `GetByIdAsync`: the doctor with that id, or `NotFound`. */
  function GetDoctor(s: Store, id: Guid): (r: Result<Profile, ServiceError>)
    ensures r.Failure? <==> !(id in s && s[id].Doctor?)
    ensures r.Failure? ==> r.error == NotFound(id)
    ensures r.Success? ==> r.value == s[id]
  {
    match GetById(s, DoctorKind, id)
    case None => Failure(NotFound(id))
    case Some(p) => Success(p)
  }

  /** `CreateAsync`: validate with the doctor creation validator's findings, map, add, commit. */
  function CreateDoctor(s: Store, dto: DoctorForCreation, violations: set<Field>, newId: Guid)
    : (r: Result<Created, ServiceError>)
    requires WellKeyed(s)
    ensures violations != {} ==> r == Failure(ValidationFailed(violations))
    ensures violations == {} && newId in s ==> r == Failure(Conflict(newId))
    ensures violations == {} && newId !in s ==> r.Success?
    ensures r.Success? ==>
      && r.value.store == s[newId := r.value.profile]
      && r.value.profile == DoctorFromCreation(dto, newId)
      && GetDoctor(r.value.store, newId) == Success(r.value.profile)
      && WellKeyed(r.value.store)
      && Count(r.value.store, DoctorKind) == Count(s, DoctorKind) + 1
      && r.value.store[newId].status == dto.status
  {
    var _ :- Validate(violations);
    var p := DoctorFromCreation(dto, newId);
    var s' :- Commit(Add(s, p));
    AddCounts(s, p, DoctorKind);
    ChangesKeepWellKeyed(s, p);
    Success(Created(s', p))
  }

  /**
    Creation as a relational store carries it out. `Status` is configured with
    `HasDefaultValue(AtWork)`, and EF leaves a property holding its CLR default out of the
    INSERT so that the column default applies; the CLR default of `DoctorStatus` is
    `Inactive` (0). A doctor created as `Inactive` is therefore stored as `AtWork`.
   */
  function CreateDoctorAsWritten(s: Store, dto: DoctorForCreation, violations: set<Field>, newId: Guid)
    : (r: Result<Created, ServiceError>)
    requires WellKeyed(s)
    ensures r.Success? <==> CreateDoctor(s, dto, violations, newId).Success?
    ensures r.Failure? ==> r == CreateDoctor(s, dto, violations, newId)
    ensures r.Success? ==> r.value.store.Keys == s.Keys + {newId} && r.value.store[newId] == r.value.profile
    ensures r.Success? ==> r.value.store == s[newId := r.value.profile]
    ensures r.Success? ==> r.value.profile.Doctor? && r.value.profile == WithStatus(DoctorFromCreation(dto, newId), r.value.profile.status)
  {
    match CreateDoctor(s, dto, violations, newId)
    case Failure(e) => Failure(e)
    case Success(c) =>
      var stored := if c.profile.status == Inactive.Value() then AtWork.Value() else c.profile.status;
      var p := WithStatus(c.profile, stored);
      Success(Created(c.store[newId := p], p))
  }

  /**
    The request's status is lost on insert exactly when it is `Inactive`, while `CreateDoctor`
    keeps every requested status.
   */
  lemma InactiveDoctorCreatedAtWork(s: Store, dto: DoctorForCreation, newId: Guid)
    requires WellKeyed(s) && newId !in s
    ensures CreateDoctorAsWritten(s, dto, {}, newId).Success?
    ensures CreateDoctorAsWritten(s, dto, {}, newId).value.profile.status != dto.status
      <==> dto.status == Inactive.Value()
    ensures dto.status == Inactive.Value() ==>
      StatusOf(CreateDoctorAsWritten(s, dto, {}, newId).value.profile.status) == Some(AtWork)
    ensures CreateDoctor(s, dto, {}, newId).value.profile.status == dto.status
  {
  }

  /** `UpdateAsync`: validate, look up, copy the request onto the doctor, commit. */
  function UpdateDoctor(s: Store, id: Guid, dto: DoctorForUpdate, currentYear: int): (r: Result<Store, ServiceError>)
    requires WellKeyed(s)
    ensures var v := ValidateDoctorUpdate(dto, currentYear);
      && (v != {} ==> r == Failure(ValidationFailed(v)))
      && (v == {} && GetById(s, DoctorKind, id).None? ==> r == Failure(NotFound(id)))
      && (v == {} && GetById(s, DoctorKind, id).Some? ==> r.Success?)
    ensures r.Success? ==>
      && r.value == s[id := ApplyDoctorUpdate(s[id], dto)]
      && r.value[id].status == s[id].status
      && r.value[id].careerStartYear >= r.value[id].dateOfBirth.year + 18
      && WellKeyed(r.value)
  {
    var _ :- Validate(ValidateDoctorUpdate(dto, currentYear));
    var p :- GetDoctor(s, id);
    var q := ApplyDoctorUpdate(p, dto);
    ChangesKeepWellKeyed(s, q);
    Commit(Update(s, q))
  }

  /**
    `ChangeDoctorStatusAsync`: a value that is no member of `DoctorStatus` is refused before
    the lookup; otherwise the doctor's status becomes that value, whatever it was before.
   */
  function ChangeDoctorStatus(s: Store, id: Guid, status: int): (r: Result<Store, ServiceError>)
    requires WellKeyed(s)
    ensures !(0 <= status <= 6) ==> r == Failure(ValidationFailed({}))
    ensures 0 <= status <= 6 && GetById(s, DoctorKind, id).None? ==> r == Failure(NotFound(id))
    ensures 0 <= status <= 6 && GetById(s, DoctorKind, id).Some? ==> r.Success?
    ensures r.Success? ==>
      && r.value.Keys == s.Keys
      && r.value[id] == WithStatus(s[id], status)
      && StatusOf(r.value[id].status).Some?
      && (forall other :: other in s && other != id ==> r.value[other] == s[other])
      && WellKeyed(r.value)
  {
    var _ :- if IsDefinedStatus(status) then Success(()) else Failure(ValidationFailed({}));
    var p :- GetDoctor(s, id);
    var q := WithStatus(p, status);
    ChangesKeepWellKeyed(s, q);
    Commit(Update(s, q))
  }

  /** Setting the same status twice leaves the store as setting it once. */
  lemma ChangeDoctorStatusIdempotent(s: Store, id: Guid, status: int)
    requires WellKeyed(s)
    ensures var r := ChangeDoctorStatus(s, id, status);
      r.Success? ==> ChangeDoctorStatus(r.value, id, status) == r
  {
    var r := ChangeDoctorStatus(s, id, status);
    if r.Success? {
      assert r.value[id := r.value[id]] == r.value;
    }
  }

  /** No transition graph: from any defined status a doctor can be moved to any other. */
  lemma EveryStatusReachable(s: Store, id: Guid, from: DoctorStatus, to: DoctorStatus)
    requires WellKeyed(s) && id in s && s[id].Doctor? && s[id].status == from.Value()
    ensures var r := ChangeDoctorStatus(s, id, to.Value());
      r.Success? && StatusOf(r.value[id].status) == Some(to)
  {
    StatusValueRoundTrip(to);
  }

  /** Of all the doctor operations, only creation changes the number of doctors, and it only adds one. */
  lemma DoctorServiceKeepsDoctors(s: Store, id: Guid, u: DoctorForUpdate, currentYear: int, status: int)
    requires WellKeyed(s)
    ensures var r := UpdateDoctor(s, id, u, currentYear); r.Success? ==> Count(r.value, DoctorKind) == Count(s, DoctorKind)
    ensures var r := ChangeDoctorStatus(s, id, status); r.Success? ==> Count(r.value, DoctorKind) == Count(s, DoctorKind)
  {
    if GetDoctor(s, id).Success? {
      UpdateCounts(s, ApplyDoctorUpdate(s[id], u), DoctorKind);
      UpdateCounts(s, WithStatus(s[id], status), DoctorKind);
    }
  }
}

=== FILE: entities.dfy ===
/**
  The stored profile kinds. `UserProfile` and its three subclasses become one tagged union
  whose constructors share the common fields by name.
 */
module Entities {
  import opened Wrappers
  import opened Guids
  import opened Text

  /** `DateOnly`; the validators only ever read the year. */
  datatype Date = Date(year: int, month: int, day: int)

  /** The seven members of the C# `DoctorStatus` enum. */
  datatype DoctorStatus =
    | Inactive | AtWork | OnVacation | SickDay | SickLeave | SelfIsolation | LeaveWithoutPay
  {
    /** The enum member's underlying integer. */
    function Value(): (v: int)
      ensures 0 <= v <= 6
    {
      match this
      case Inactive => 0
      case AtWork => 1
      case OnVacation => 2
      case SickDay => 3
      case SickLeave => 4
      case SelfIsolation => 5
      case LeaveWithoutPay => 6
    }
  }

  /** `Enum.IsDefined(typeof(DoctorStatus), v)`: the member with underlying value `v`, if there is one. */
  function StatusOf(v: int): (r: Option<DoctorStatus>)
    ensures r.Some? <==> 0 <= v <= 6
    ensures r.Some? ==> r.value.Value() == v
  {
    if v == 0 then Some(Inactive)
    else if v == 1 then Some(AtWork)
    else if v == 2 then Some(OnVacation)
    else if v == 3 then Some(SickDay)
    else if v == 4 then Some(SickLeave)
    else if v == 5 then Some(SelfIsolation)
    else if v == 6 then Some(LeaveWithoutPay)
    else None
  }

  predicate IsDefinedStatus(v: int) {
    StatusOf(v).Some?
  }

  /** Every member is recovered from its underlying value, so distinct members have distinct values. */
  lemma StatusValueRoundTrip(s: DoctorStatus)
    ensures StatusOf(s.Value()) == Some(s)
  {
  }

  /**
    A stored profile. A C# enum field can hold any integer, so a doctor's `status` is the raw
    underlying value; `StatusOf` says which member, if any, it denotes.
   */
  datatype Profile =
    | Doctor(id: Guid, name: Text, lastName: Text, middleName: Text,
             accountId: Option<Guid>, photoId: Option<Guid>,
             dateOfBirth: Date, specializationId: Guid, officeId: Guid,
             careerStartYear: int, status: int)
    | Patient(id: Guid, name: Text, lastName: Text, middleName: Text,
              accountId: Option<Guid>, photoId: Option<Guid>,
              isLinkedToAccount: bool, dateOfBirth: Date)
    | Receptionist(id: Guid, name: Text, lastName: Text, middleName: Text,
                   accountId: Option<Guid>, photoId: Option<Guid>,
                   officeId: Guid)

  /** The concrete class of a profile, as `OfType<T>()` tests it. */
  datatype Kind = DoctorKind | PatientKind | ReceptionistKind

  function KindOf(p: Profile): Kind {
    match p
    case Doctor(_, _, _, _, _, _, _, _, _, _, _) => DoctorKind
    case Patient(_, _, _, _, _, _, _, _) => PatientKind
    case Receptionist(_, _, _, _, _, _, _) => ReceptionistKind
  }

  /** A doctor with only its status replaced. */
  function WithStatus(p: Profile, status: int): (q: Profile)
    requires p.Doctor?
    ensures q.Doctor? && q.id == p.id && q.status == status
    ensures q.name == p.name && q.lastName == p.lastName && q.middleName == p.middleName
    ensures q.accountId == p.accountId && q.photoId == p.photoId && q.dateOfBirth == p.dateOfBirth
    ensures q.specializationId == p.specializationId && q.officeId == p.officeId
    ensures q.careerStartYear == p.careerStartYear
  {
    Doctor(p.id, p.name, p.lastName, p.middleName, p.accountId, p.photoId, p.dateOfBirth,
           p.specializationId, p.officeId, p.careerStartYear, status)
  }

  /** A patient's account link is consistent: the flag is set exactly when an account is referenced. */
  predicate LinkConsistent(p: Profile)
    requires p.Patient?
  {
    p.isLinkedToAccount <==> p.accountId.Some?
  }
}

=== FILE: guids.dfy ===
/**
  A GUID as an opaque 128-bit value, written as 32 hexadecimal digits.

  The validators test a GUID with `Guid.TryParse(g.ToString(), out _)`; this module
  models `ToString()` (the "D" format `xxxxxxxx-xxxx-xxxx-xxxx-xxxxxxxxxxxx`, lower-case)
  and the "D"-format branch of `TryParse`, and proves that parsing the text of any GUID
  gives that GUID back.
 */
module Guids {
  import opened Wrappers

  /** One hexadecimal digit. */
  type Nibble = x: int | 0 <= x < 16

  function Pow16(n: nat): (p: nat)
    ensures p > 0
  {
    if n == 0 then 1 else 16 * Pow16(n - 1)
  }

  datatype GuidValue = GuidValue(value: nat)

  /** 2^128, the number of distinct GUIDs. */
  const GuidBound: nat := 0x1_0000_0000_0000_0000_0000_0000_0000_0000

  lemma {:induction false} Pow16Add(a: nat, b: nat)
    ensures Pow16(a + b) == Pow16(a) * Pow16(b)
    decreases a
  {
    if a > 0 {
      Pow16Add(a - 1, b);
      assert Pow16(a + b) == 16 * Pow16(a - 1 + b);
    }
  }

  lemma GuidBoundIsPow16()
    ensures Pow16(32) == GuidBound
  {
    assert Pow16(4) == 0x1_0000;
    Pow16Add(4, 4);
    Pow16Add(8, 8);
    Pow16Add(16, 16);
  }

  /** A GUID: an opaque 128-bit value, that is, 32 hexadecimal digits. */
  type Guid = g: GuidValue | g.value < GuidBound witness GuidValue(0)

  /** `Guid.Empty`: all 128 bits zero. */
  const Empty: Guid := GuidValue(0)

  /** The `n` lowest hexadecimal digits of `v`, most significant first. */
  function ToNibbles(v: nat, n: nat): (ds: seq<Nibble>)
    ensures |ds| == n
  {
    if n == 0 then [] else ToNibbles(v / 16, n - 1) + [v % 16]
  }

  /** The number a run of hexadecimal digits denotes, most significant first. */
  function FromNibbles(ds: seq<Nibble>): nat {
    if ds == [] then 0 else 16 * FromNibbles(ds[..|ds| - 1]) + ds[|ds| - 1]
  }

  /** `n` digits hold a value below `16^n`. */
  lemma {:induction false} FromNibblesBound(ds: seq<Nibble>)
    ensures FromNibbles(ds) < Pow16(|ds|)
  {
    if ds != [] {
      FromNibblesBound(ds[..|ds| - 1]);
    }
  }

  lemma {:induction false} FromToNibbles(v: nat, n: nat)
    requires v < Pow16(n)
    ensures FromNibbles(ToNibbles(v, n)) == v
  {
    if n > 0 {
      var ds := ToNibbles(v, n);
      assert ds[..n - 1] == ToNibbles(v / 16, n - 1);
      assert ds[n - 1] == v % 16;
      assert v / 16 < Pow16(n - 1);
      FromToNibbles(v / 16, n - 1);
      assert v == 16 * (v / 16) + v % 16;
    }
  }

  const HexDigits: string := "0123456789abcdef"

  /** Lower-case hexadecimal character of a digit, as `Guid.ToString()` writes it. */
  function HexChar(n: Nibble): (c: char)
    ensures c in HexDigits
  {
    HexDigits[n]
  }

  /** The digit a hexadecimal character stands for; both letter cases are accepted. */
  function HexValue(c: char): (r: Option<Nibble>)
    ensures r.Some? <==> ('0' <= c <= '9' || 'a' <= c <= 'f' || 'A' <= c <= 'F')
  {
    if '0' <= c <= '9' then Some((c - '0') as int)
    else if 'a' <= c <= 'f' then Some((c - 'a') as int + 10)
    else if 'A' <= c <= 'F' then Some((c - 'A') as int + 10)
    else None
  }

  lemma HexValueOfHexChar(n: Nibble)
    ensures HexValue(HexChar(n)) == Some(n)
  {
  }

  function HexString(ds: seq<Nibble>): (s: string)
    ensures |s| == |ds|
  {
    if ds == [] then "" else [HexChar(ds[0])] + HexString(ds[1..])
  }

  /** Reads a run of hexadecimal characters; fails on the first character that is not one. */
  function ParseHex(s: string): (r: Option<seq<Nibble>>)
    ensures r.Some? ==> |r.value| == |s|
  {
    if s == [] then Some([])
    else
      match HexValue(s[0])
      case None => None
      case Some(d) =>
        match ParseHex(s[1..])
        case None => None
        case Some(rest) => Some([d] + rest)
  }

  lemma {:induction false} ParseHexString(ds: seq<Nibble>)
    ensures ParseHex(HexString(ds)) == Some(ds)
  {
    if ds != [] {
      var s := HexString(ds);
      assert s == [HexChar(ds[0])] + HexString(ds[1..]);
      HexValueOfHexChar(ds[0]);
      assert s[1..] == HexString(ds[1..]);
      ParseHexString(ds[1..]);
      assert ds == [ds[0]] + ds[1..];
    }
  }

  /** The digit-group lengths of the "D" format: 8-4-4-4-12. */
  const GroupSizes: seq<nat> := [8, 4, 4, 4, 12]

  function Sum(sizes: seq<nat>): nat {
    if sizes == [] then 0 else sizes[0] + Sum(sizes[1..])
  }

  /** Digits written group by group, with a dash between consecutive groups. */
  function FormatGroups(ds: seq<Nibble>, sizes: seq<nat>): string
    requires sizes != [] && |ds| == Sum(sizes)
  {
    if |sizes| == 1 then HexString(ds)
    else HexString(ds[..sizes[0]]) + "-" + FormatGroups(ds[sizes[0]..], sizes[1..])
  }

  /** Reads dash-separated groups of exactly the given lengths. */
  function ParseGroups(s: string, sizes: seq<nat>): (r: Option<seq<Nibble>>)
    requires sizes != []
    ensures r.Some? ==> |r.value| == Sum(sizes)
  {
    var k := sizes[0];
    if |sizes| == 1 then
      if |s| == k then ParseHex(s) else None
    else if |s| <= k || s[k] != '-' then None
    else
      match ParseHex(s[..k])
      case None => None
      case Some(head) =>
        match ParseGroups(s[k + 1..], sizes[1..])
        case None => None
        case Some(tail) => Some(head + tail)
  }

  lemma {:induction false} ParseFormatGroups(ds: seq<Nibble>, sizes: seq<nat>)
    requires sizes != [] && |ds| == Sum(sizes)
    ensures ParseGroups(FormatGroups(ds, sizes), sizes) == Some(ds)
  {
    var k := sizes[0];
    if |sizes| == 1 {
      ParseHexString(ds);
    } else {
      var s := FormatGroups(ds, sizes);
      var rest := FormatGroups(ds[k..], sizes[1..]);
      assert s == HexString(ds[..k]) + "-" + rest;
      assert s[..k] == HexString(ds[..k]);
      assert s[k] == '-';
      assert s[k + 1..] == rest;
      ParseHexString(ds[..k]);
      ParseFormatGroups(ds[k..], sizes[1..]);
      assert ds == ds[..k] + ds[k..];
    }
  }

  /** `Guid.ToString()`: the "D" format `xxxxxxxx-xxxx-xxxx-xxxx-xxxxxxxxxxxx`. */
  function Format(g: Guid): string {
    FormatGroups(ToNibbles(g.value, 32), GroupSizes)
  }

  /** The "D"-format branch of `Guid.TryParse`. */
  function Parse(s: string): Option<Guid> {
    match ParseGroups(s, GroupSizes)
    case None => None
    case Some(ds) => FromNibblesBound(ds); GuidBoundIsPow16(); Some(GuidValue(FromNibbles(ds)))
  }

  /** Round trip: the text of a GUID always parses back to the same GUID. */
  lemma ParseFormat(g: Guid)
    ensures Parse(Format(g)) == Some(g)
  {
    ParseFormatGroups(ToNibbles(g.value, 32), GroupSizes);
    GuidBoundIsPow16();
    FromToNibbles(g.value, 32);
  }

  /** The C# `Guid.ToString()` of a `Guid?`: the empty string for null. */
  function NullableText(g: Option<Guid>): (s: string)
    ensures g.None? <==> s == ""
  {
    match g
    case None => ""
    case Some(v) => Format(v)
  }

  /**
    `ValidateGuid`, the nullable overload of the validators: the value is not null and
    differs from `Guid.Empty`. The source also requires its text to parse back as a GUID;
    `ValidateNullableGuidIsTryParse` shows that this second test only ever rejects null.
   */
  predicate ValidateNullableGuid(g: Option<Guid>) {
    g.Some? && g.value != Empty
  }

  /**
    The nullable overload as the source writes it: the value differs from `Guid.Empty`
    (null does) and `Guid.TryParse(g.ToString())` succeeds (it fails on the empty text of null).
   */
  lemma ValidateNullableGuidIsTryParse(g: Option<Guid>)
    ensures ValidateNullableGuid(g) <==> g != Some(Empty) && Parse(NullableText(g)).Some?
    ensures g.Some? ==> Parse(NullableText(g)) == Some(g.value)
  {
    if g.Some? {
      ParseFormat(g.value);
    } else {
      assert Parse(NullableText(g)).None? by {
        assert NullableText(g) == "";
      }
    }
  }

  /**
    `ValidateGuid`, the non-nullable overload: the value differs from `Guid.Empty`. As for
    the nullable overload, `ValidateGuidIsTryParse` shows the parse test never rejects.
   */
  predicate ValidateGuid(g: Guid) {
    g != Empty
  }

  /** The non-nullable overload as the source writes it, and the parse it performs. */
  lemma ValidateGuidIsTryParse(g: Guid)
    ensures ValidateGuid(g) <==> g != Empty && Parse(Format(g)).Some?
    ensures Parse(Format(g)) == Some(g)
  {
    ParseFormat(g);
  }
}

=== FILE: patient_service.dfy ===
/**
  `PatientService`: each operation validates its request (when it has one), looks the
  patient up, copies the request's fields onto it and commits, in that order; the first
  step that fails decides the error. The clock and `AllowedAge.Max` are parameters, and so
  is the id the database generates for a new row.
 */
module PatientService {
  import opened Wrappers
  import opened Guids
  import opened Entities
  import opened Contracts
  import opened Validation
  import opened CreationValidators
  import opened UpdateValidators
  import opened ProfileStore
  import opened ServiceResults

  /** The mapping `PatientForCreationDto -> Patient`, the row getting the generated id. */
  function PatientFromCreation(dto: PatientForCreation, id: Guid): (p: Profile)
    ensures p.Patient? && p.id == id
    ensures p.name == dto.profile.name && p.lastName == dto.profile.lastName
    ensures p.middleName == dto.profile.middleName && p.photoId == dto.profile.photoId
    ensures p.accountId == dto.profile.accountId && p.isLinkedToAccount == dto.isLinkedToAccount
    ensures p.dateOfBirth == dto.dateOfBirth
  {
    Patient(id, dto.profile.name, dto.profile.lastName, dto.profile.middleName,
            dto.profile.accountId, dto.profile.photoId, dto.isLinkedToAccount, dto.dateOfBirth)
  }

  /** The mapping `PatientForUpdateDto -> Patient` onto a stored patient: the request has no id or account fields. */
  function ApplyPatientUpdate(p: Profile, dto: PatientForUpdate): (q: Profile)
    requires p.Patient?
    ensures q.Patient? && q.id == p.id
    ensures q.accountId == p.accountId && q.isLinkedToAccount == p.isLinkedToAccount
    ensures q.name == dto.profile.name && q.lastName == dto.profile.lastName
    ensures q.middleName == dto.profile.middleName && q.photoId == dto.profile.photoId
    ensures q.dateOfBirth == dto.dateOfBirth
  {
    Patient(p.id, dto.profile.name, dto.profile.lastName, dto.profile.middleName,
            p.accountId, dto.profile.photoId, p.isLinkedToAccount, dto.dateOfBirth)
  }

  /** `GetByIdAsync`: the patient with that id, or `NotFound`. */
  function GetPatient(s: Store, id: Guid): (r: Result<Profile, ServiceError>)
    ensures r.Failure? <==> !(id in s && s[id].Patient?)
    ensures r.Failure? ==> r.error == NotFound(id)
    ensures r.Success? ==> r.value == s[id]
  {
    match GetById(s, PatientKind, id)
    case None => Failure(NotFound(id))
    case Some(p) => Success(p)
  }

  /** `CreateAsync`: validate, map, add under the generated id, commit. */
  function CreatePatient(s: Store, dto: PatientForCreation, newId: Guid, currentYear: int, maxAge: int)
    : (r: Result<Created, ServiceError>)
    requires WellKeyed(s)
    ensures var v := ValidatePatientCreation(dto, currentYear, maxAge);
      && (v != {} ==> r == Failure(ValidationFailed(v)))
      && (v == {} && newId in s ==> r == Failure(Conflict(newId)))
      && (v == {} && newId !in s ==> r.Success?)
    ensures r.Success? ==>
      && r.value.store == s[newId := r.value.profile]
      && r.value.profile == PatientFromCreation(dto, newId)
      && GetPatient(r.value.store, newId) == Success(r.value.profile)
      && WellKeyed(r.value.store)
      && Count(r.value.store, PatientKind) == Count(s, PatientKind) + 1
      && LinkConsistent(r.value.profile)
  {
    var _ :- Validate(ValidatePatientCreation(dto, currentYear, maxAge));
    var p := PatientFromCreation(dto, newId);
    var s' :- Commit(Add(s, p));
    AddCounts(s, p, PatientKind);
    ChangesKeepWellKeyed(s, p);
    Success(Created(s', p))
  }

  /** `UpdateAsync`: validate, look up, copy the request onto the patient, commit. */
  function UpdatePatient(s: Store, id: Guid, dto: PatientForUpdate, currentYear: int)
    : (r: Result<Store, ServiceError>)
    requires WellKeyed(s)
    ensures var v := ValidatePatientUpdate(dto, currentYear);
      && (v != {} ==> r == Failure(ValidationFailed(v)))
      && (v == {} && GetById(s, PatientKind, id).None? ==> r == Failure(NotFound(id)))
      && (v == {} && GetById(s, PatientKind, id).Some? ==> r.Success?)
    ensures r.Success? ==>
      && r.value == s[id := ApplyPatientUpdate(s[id], dto)]
      && WellKeyed(r.value)
  {
    var _ :- Validate(ValidatePatientUpdate(dto, currentYear));
    var p :- GetPatient(s, id);
    var q := ApplyPatientUpdate(p, dto);
    ChangesKeepWellKeyed(s, q);
    Commit(Update(s, q))
  }

  /** `LinkUserProfileToAccountAsync`: no validation; set the account and raise the link flag. */
  function LinkUserProfileToAccount(s: Store, id: Guid, accountId: Guid): (r: Result<Store, ServiceError>)
    requires WellKeyed(s)
    ensures r.Failure? <==> GetById(s, PatientKind, id).None?
    ensures r.Failure? ==> r.error == NotFound(id)
    ensures r.Success? ==>
      && r.value == s[id := s[id].(accountId := Some(accountId), isLinkedToAccount := true)]
      && LinkConsistent(r.value[id])
      && WellKeyed(r.value)
  {
    var p :- GetPatient(s, id);
    var q := Patient(p.id, p.name, p.lastName, p.middleName, Some(accountId), p.photoId, true, p.dateOfBirth);
    ChangesKeepWellKeyed(s, q);
    Commit(Update(s, q))
  }

  /** `DeleteAsync`: look up, remove, commit. */
  function DeletePatient(s: Store, id: Guid): (r: Result<Store, ServiceError>)
    requires WellKeyed(s)
    ensures r.Failure? <==> GetById(s, PatientKind, id).None?
    ensures r.Failure? ==> r.error == NotFound(id)
    ensures r.Success? ==>
      && r.value == s - {id}
      && Count(r.value, PatientKind) == Count(s, PatientKind) - 1
      && GetPatient(r.value, id) == Failure(NotFound(id))
      && WellKeyed(r.value)
  {
    var p :- GetPatient(s, id);
    RemoveCounts(s, p, PatientKind);
    ChangesKeepWellKeyed(s, p);
    Commit(Remove(s, p))
  }

  /** Every stored patient's link flag is set exactly when it references an account. */
  predicate AllLinksConsistent(s: Store) {
    forall id :: id in s && s[id].Patient? ==> LinkConsistent(s[id])
  }

  /**
    The patient operations keep every link consistent: creation because the validator
    demands it, update because it never touches the account fields, linking because it sets
    both, deletion because it only removes.
   */
  lemma PatientOperationsKeepLinks(s: Store, id: Guid, accountId: Guid, c: PatientForCreation,
                                   u: PatientForUpdate, newId: Guid, currentYear: int, maxAge: int)
    requires WellKeyed(s) && AllLinksConsistent(s)
    ensures var r := CreatePatient(s, c, newId, currentYear, maxAge); r.Success? ==> AllLinksConsistent(r.value.store)
    ensures var r := UpdatePatient(s, id, u, currentYear); r.Success? ==> AllLinksConsistent(r.value)
    ensures var r := LinkUserProfileToAccount(s, id, accountId); r.Success? ==> AllLinksConsistent(r.value)
    ensures var r := DeletePatient(s, id); r.Success? ==> AllLinksConsistent(r.value)
  {
    var created := CreatePatient(s, c, newId, currentYear, maxAge);
    if created.Success? {
      var t := created.value.store;
      forall i | i in t && t[i].Patient?
        ensures LinkConsistent(t[i])
      {
        if i != newId {
          assert t[i] == s[i];
        }
      }
    }
    var updated := UpdatePatient(s, id, u, currentYear);
    if updated.Success? {
      var t := updated.value;
      forall i | i in t && t[i].Patient?
        ensures LinkConsistent(t[i])
      {
        if i != id {
          assert t[i] == s[i];
        }
      }
    }
    var linked := LinkUserProfileToAccount(s, id, accountId);
    if linked.Success? {
      var t := linked.value;
      forall i | i in t && t[i].Patient?
        ensures LinkConsistent(t[i])
      {
        if i != id {
          assert t[i] == s[i];
        }
      }
    }
  }

  /** Linking the same account twice leaves the store as linking it once. */
  lemma LinkIdempotent(s: Store, id: Guid, accountId: Guid)
    requires WellKeyed(s)
    ensures var r := LinkUserProfileToAccount(s, id, accountId);
      r.Success? ==> LinkUserProfileToAccount(r.value, id, accountId) == r
  {
    var r := LinkUserProfileToAccount(s, id, accountId);
    if r.Success? {
      var q := r.value[id];
      assert r.value[id := q] == r.value;
    }
  }
}

=== FILE: profile_store.dfy ===
/**
  The profile table as the three repositories see it: one map from id to profile, every
  profile of every kind in it, and each repository filtering by kind (`OfType<T>()`).
  A repository change takes effect at `SaveChangesAsync`; a change the database would
  refuse (a second row with an existing key, an update or delete of a missing row) is
  reported as a conflict instead of an exception.
 */
module ProfileStore {
  import opened Wrappers
  import opened Guids
  import opened Entities

  type Store = map<Guid, Profile>

  /** Every profile is stored under its own `Id`, the table's primary key. */
  predicate WellKeyed(s: Store) {
    forall id :: id in s ==> s[id].id == id
  }

  /** What `SaveChangesAsync` refuses: a key that is already taken, or a row that is missing. */
  datatype StoreError = KeyConflict(id: Guid)

  /** The ids of the stored profiles of one kind. */
  function IdsOf(s: Store, k: Kind): set<Guid> {
    set id | id in s && KindOf(s[id]) == k
  }

  /** How many profiles of one kind are stored. */
  function Count(s: Store, k: Kind): nat {
    |IdsOf(s, k)|
  }

  /** `GetAllAsync`: `OfType<T>().ToListAsync()`, the stored profiles of one kind, by id. */
  function GetAll(s: Store, k: Kind): (r: map<Guid, Profile>)
    ensures r.Keys == IdsOf(s, k)
    ensures forall id :: id in r ==> KindOf(r[id]) == k && r[id] == s[id]
    ensures |r| == Count(s, k)
  {
    var r := map id | id in IdsOf(s, k) :: s[id];
    assert r.Keys == IdsOf(s, k);
    r
  }

  /**
    `GetByIdAsync`: `OfType<T>().FirstOrDefaultAsync(x => x.Id == id)`, the profile of that
    kind with that id, or null.
   */
  function GetById(s: Store, k: Kind, id: Guid): (r: Option<Profile>)
    ensures r.Some? <==> id in IdsOf(s, k)
    ensures r.Some? ==> r.value == s[id] && KindOf(r.value) == k
  {
    if id in s && KindOf(s[id]) == k then Some(s[id]) else None
  }

  /**
    Looking a profile up by key finds the same profile as searching the table for one with
    that `Id`, which is what `FirstOrDefaultAsync` does.
   */
  lemma GetByIdIsSearch(s: Store, k: Kind, id: Guid)
    requires WellKeyed(s)
    ensures GetById(s, k, id).Some? <==> exists p :: p in s.Values && p.id == id && KindOf(p) == k
    ensures forall p :: p in s.Values && p.id == id && KindOf(p) == k ==> GetById(s, k, id) == Some(p)
  {
    if id in s && KindOf(s[id]) == k {
      assert s[id] in s.Values;
    }
    forall p | p in s.Values && p.id == id && KindOf(p) == k
      ensures GetById(s, k, id) == Some(p)
    {
      var key :| key in s && s[key] == p;
      assert key == id;
    }
  }

  /** `GetAll` and `GetById` agree: a profile is listed exactly when it can be fetched by id. */
  lemma GetAllAgreesWithGetById(s: Store, k: Kind, id: Guid)
    ensures id in GetAll(s, k) <==> GetById(s, k, id).Some?
    ensures id in GetAll(s, k) ==> GetById(s, k, id) == Some(GetAll(s, k)[id])
  {
  }

  /** `AddAsync` then `SaveChangesAsync`: insert a new row. */
  function Add(s: Store, p: Profile): (r: Result<Store, StoreError>)
    ensures r.Failure? <==> p.id in s
    ensures r.Failure? ==> r.error == KeyConflict(p.id)
    ensures r.Success? ==> r.value.Keys == s.Keys + {p.id}
    ensures r.Success? ==> GetById(r.value, KindOf(p), p.id) == Some(p)
    ensures r.Success? ==> forall id :: id in s ==> r.value[id] == s[id]
  {
    if p.id in s then Failure(KeyConflict(p.id)) else Success(s[p.id := p])
  }

  /** `Update` then `SaveChangesAsync`: overwrite an existing row of the same kind. */
  function Update(s: Store, p: Profile): (r: Result<Store, StoreError>)
    ensures r.Failure? <==> GetById(s, KindOf(p), p.id).None?
    ensures r.Failure? ==> r.error == KeyConflict(p.id)
    ensures r.Success? ==> r.value.Keys == s.Keys
    ensures r.Success? ==> GetById(r.value, KindOf(p), p.id) == Some(p)
    ensures r.Success? ==> forall id :: id in s && id != p.id ==> r.value[id] == s[id]
  {
    if p.id in s && KindOf(s[p.id]) == KindOf(p) then Success(s[p.id := p]) else Failure(KeyConflict(p.id))
  }

  /** `Remove` then `SaveChangesAsync`: delete an existing row. Only patients and receptionists have it. */
  function Remove(s: Store, p: Profile): (r: Result<Store, StoreError>)
    requires !p.Doctor?
    ensures r.Failure? <==> GetById(s, KindOf(p), p.id).None?
    ensures r.Failure? ==> r.error == KeyConflict(p.id)
    ensures r.Success? ==> r.value.Keys == s.Keys - {p.id}
    ensures r.Success? ==> GetById(r.value, KindOf(p), p.id).None?
    ensures r.Success? ==> forall id :: id in r.value ==> r.value[id] == s[id]
  {
    if p.id in s && KindOf(s[p.id]) == KindOf(p) then Success(s - {p.id}) else Failure(KeyConflict(p.id))
  }

  /** Every change keeps each profile stored under its own id. */
  lemma ChangesKeepWellKeyed(s: Store, p: Profile)
    requires WellKeyed(s)
    ensures Add(s, p).Success? ==> WellKeyed(Add(s, p).value)
    ensures Update(s, p).Success? ==> WellKeyed(Update(s, p).value)
    ensures !p.Doctor? && Remove(s, p).Success? ==> WellKeyed(Remove(s, p).value)
  {
  }

  /** The ids of one kind after writing `p` under its id. */
  lemma IdsOfWrite(s: Store, p: Profile, k: Kind)
    requires p.id !in s || KindOf(s[p.id]) == KindOf(p)
    ensures IdsOf(s[p.id := p], k) == IdsOf(s, k) + (if k == KindOf(p) then {p.id} else {})
  {
    var after, expected := IdsOf(s[p.id := p], k), IdsOf(s, k) + (if k == KindOf(p) then {p.id} else {});
    forall id ensures id in after <==> id in expected {
      if id != p.id {
        assert id in s[p.id := p] <==> id in s;
      }
    }
  }

  /** Adding grows the count of the new profile's kind by one and leaves the other kinds' counts alone. */
  lemma AddCounts(s: Store, p: Profile, k: Kind)
    requires Add(s, p).Success?
    ensures Count(Add(s, p).value, k) == Count(s, k) + (if k == KindOf(p) then 1 else 0)
  {
    IdsOfWrite(s, p, k);
    assert p.id !in IdsOf(s, k);
  }

  /** Updating leaves every kind's count alone. */
  lemma UpdateCounts(s: Store, p: Profile, k: Kind)
    requires Update(s, p).Success?
    ensures Count(Update(s, p).value, k) == Count(s, k)
  {
    assert Update(s, p).value == s[p.id := p];
    IdsOfWrite(s, p, k);
    if k == KindOf(p) {
      assert IdsOf(s, k) + {p.id} == IdsOf(s, k);
    }
  }

  /** Removing shrinks the count of the removed profile's kind by one and leaves the other kinds' counts alone. */
  lemma RemoveCounts(s: Store, p: Profile, k: Kind)
    requires !p.Doctor? && Remove(s, p).Success?
    ensures Count(Remove(s, p).value, k) == Count(s, k) - (if k == KindOf(p) then 1 else 0)
  {
    var s' := Remove(s, p).value;
    if k == KindOf(p) {
      assert IdsOf(s', k) == IdsOf(s, k) - {p.id};
    } else {
      assert IdsOf(s', k) == IdsOf(s, k);
    }
  }

  /**
    The doctor repository has no `Remove`, and removing a patient or a receptionist never
    touches a doctor: no repository operation lowers the number of doctors.
   */
  lemma DoctorCountNeverDecreases(s: Store, p: Profile)
    ensures Add(s, p).Success? ==> Count(Add(s, p).value, DoctorKind) >= Count(s, DoctorKind)
    ensures Update(s, p).Success? ==> Count(Update(s, p).value, DoctorKind) == Count(s, DoctorKind)
    ensures !p.Doctor? && Remove(s, p).Success? ==> Count(Remove(s, p).value, DoctorKind) == Count(s, DoctorKind)
  {
    if Add(s, p).Success? {
      AddCounts(s, p, DoctorKind);
    }
    if Update(s, p).Success? {
      UpdateCounts(s, p, DoctorKind);
    }
    if !p.Doctor? && Remove(s, p).Success? {
      RemoveCounts(s, p, DoctorKind);
    }
  }
}

=== FILE: receptionist_service.dfy ===
/**
  `ReceptionistService`: validate, look up, copy fields, commit, in that order; the first
  step that fails decides the error. The id the database generates for a new row is a
  parameter.
 */
module ReceptionistService {
  import opened Wrappers
  import opened Guids
  import opened Entities
  import opened Contracts
  import opened Validation
  import opened CreationValidators
  import opened UpdateValidators
  import opened ProfileStore
  import opened ServiceResults

  /** The mapping `ReceptionistForCreationDto -> Receptionist`, the row getting the generated id. */
  function ReceptionistFromCreation(dto: ReceptionistForCreation, id: Guid): (p: Profile)
    ensures p.Receptionist? && p.id == id
    ensures p.name == dto.profile.name && p.lastName == dto.profile.lastName
    ensures p.middleName == dto.profile.middleName && p.photoId == dto.profile.photoId
    ensures p.accountId == dto.profile.accountId && p.officeId == dto.officeId
  {
    Receptionist(id, dto.profile.name, dto.profile.lastName, dto.profile.middleName,
                 dto.profile.accountId, dto.profile.photoId, dto.officeId)
  }

  /** The mapping `ReceptionistForUpdateDto -> Receptionist` onto a stored receptionist. */
  function ApplyReceptionistUpdate(p: Profile, dto: ReceptionistForUpdate): (q: Profile)
    requires p.Receptionist?
    ensures q.Receptionist? && q.id == p.id && q.accountId == p.accountId
    ensures q.name == dto.profile.name && q.lastName == dto.profile.lastName
    ensures q.middleName == dto.profile.middleName && q.photoId == dto.profile.photoId
    ensures q.officeId == dto.officeId
  {
    Receptionist(p.id, dto.profile.name, dto.profile.lastName, dto.profile.middleName,
                 p.accountId, dto.profile.photoId, dto.officeId)
  }

  /** `GetByIdAsync`: the receptionist with that id, or `NotFound`. */
  function GetReceptionist(s: Store, id: Guid): (r: Result<Profile, ServiceError>)
    ensures r.Failure? <==> !(id in s && s[id].Receptionist?)
    ensures r.Failure? ==> r.error == NotFound(id)
    ensures r.Success? ==> r.value == s[id]
  {
    match GetById(s, ReceptionistKind, id)
    case None => Failure(NotFound(id))
    case Some(p) => Success(p)
  }

  /** `CreateAsync`: validate, map, add under the generated id, commit. */
  function CreateReceptionist(s: Store, dto: ReceptionistForCreation, newId: Guid): (r: Result<Created, ServiceError>)
    requires WellKeyed(s)
    ensures var v := ValidateReceptionistCreation(dto);
      && (v != {} ==> r == Failure(ValidationFailed(v)))
      && (v == {} && newId in s ==> r == Failure(Conflict(newId)))
      && (v == {} && newId !in s ==> r.Success?)
    ensures r.Success? ==>
      && r.value.store == s[newId := r.value.profile]
      && r.value.profile == ReceptionistFromCreation(dto, newId)
      && GetReceptionist(r.value.store, newId) == Success(r.value.profile)
      && r.value.profile.officeId != Empty
      && WellKeyed(r.value.store)
      && Count(r.value.store, ReceptionistKind) == Count(s, ReceptionistKind) + 1
  {
    var _ :- Validate(ValidateReceptionistCreation(dto));
    var p := ReceptionistFromCreation(dto, newId);
    var s' :- Commit(Add(s, p));
    AddCounts(s, p, ReceptionistKind);
    ChangesKeepWellKeyed(s, p);
    Success(Created(s', p))
  }

  /** `UpdateAsync`: validate, look up, copy the request onto the receptionist, commit. */
  function UpdateReceptionist(s: Store, id: Guid, dto: ReceptionistForUpdate): (r: Result<Store, ServiceError>)
    requires WellKeyed(s)
    ensures var v := ValidateReceptionistUpdate(dto);
      && (v != {} ==> r == Failure(ValidationFailed(v)))
      && (v == {} && GetById(s, ReceptionistKind, id).None? ==> r == Failure(NotFound(id)))
      && (v == {} && GetById(s, ReceptionistKind, id).Some? ==> r.Success?)
    ensures r.Success? ==>
      && r.value == s[id := ApplyReceptionistUpdate(s[id], dto)]
      && r.value[id].officeId == dto.officeId && dto.officeId != Empty
      && WellKeyed(r.value)
  {
    var _ :- Validate(ValidateReceptionistUpdate(dto));
    var p :- GetReceptionist(s, id);
    var q := ApplyReceptionistUpdate(p, dto);
    ChangesKeepWellKeyed(s, q);
    Commit(Update(s, q))
  }

  /** `DeleteAsync`: look up, remove, commit. */
  function DeleteReceptionist(s: Store, id: Guid): (r: Result<Store, ServiceError>)
    requires WellKeyed(s)
    ensures r.Failure? <==> GetById(s, ReceptionistKind, id).None?
    ensures r.Failure? ==> r.error == NotFound(id)
    ensures r.Success? ==>
      && r.value == s - {id}
      && Count(r.value, ReceptionistKind) == Count(s, ReceptionistKind) - 1
      && GetReceptionist(r.value, id) == Failure(NotFound(id))
      && WellKeyed(r.value)
  {
    var p :- GetReceptionist(s, id);
    RemoveCounts(s, p, ReceptionistKind);
    ChangesKeepWellKeyed(s, p);
    Commit(Remove(s, p))
  }
}

=== FILE: scenarios.dfy ===
/**
  The validator test cases as statements about the model: the records those tests build,
  with the clock's year, every `Guid.NewGuid()` and the names left as parameters (any plain
  names, `TestNames` among them), and exactly the set of properties each validator reports.
 */
module Scenarios {
  import opened Wrappers
  import opened Guids
  import opened Text
  import opened Entities
  import opened Contracts
  import opened Validation
  import opened CreationValidators
  import opened UpdateValidators

  /** A name of 2 to 512 characters that does not start with whitespace. */
  predicate PlainName(s: string) {
    2 <= |s| <= 512 && !IsWhiteSpace(s[0])
  }

  /** The first, last and middle names of a request. */
  datatype Names = Names(name: string, lastName: string, middleName: string)

  predicate PlainNames(n: Names) {
    PlainName(n.name) && PlainName(n.lastName) && PlainName(n.middleName)
  }

  /** The names every "valid model" test uses. */
  const TestNames: Names := Names("TestName", "TestLastname", "TestMiddlename")

  lemma TestNamesArePlain()
    ensures PlainNames(TestNames)
  {
  }

  function GoodCreation(n: Names, account: Option<Guid>, photo: Guid): ProfileForCreation {
    ProfileForCreation(Some(n.name), Some(n.lastName), Some(n.middleName), account, Some(photo))
  }

  function GoodUpdate(n: Names, photo: Guid): ProfileForUpdate {
    ProfileForUpdate(Some(n.name), Some(n.lastName), Some(n.middleName), Some(photo))
  }

  /** The malformed names every "invalid model" test uses, with every reference empty. */
  const BadCreation: ProfileForCreation :=
    ProfileForCreation(Some(""), Some(""), Some("m"), Some(Empty), Some(Empty))

  const BadUpdate: ProfileForUpdate := ProfileForUpdate(Some(""), Some(""), Some("m"), Some(Empty))

  /** A plain name passes every name rule. */
  lemma PlainNamePasses(s: string)
    requires PlainName(s)
    ensures !RequiredNameFails(Some(s)) && !MiddleNameFails(Some(s)) && !UpdateMiddleNameFails(Some(s))
  {
    assert !AllWhiteSpace(s);
  }

  lemma GoodNamesPass(n: Names, account: Option<Guid>, photo: Guid)
    requires PlainNames(n) && account != Some(Empty) && photo != Empty
    ensures ValidateProfileCreation(GoodCreation(n, account, photo)) == {}
    ensures ValidateProfileUpdate(GoodUpdate(n, photo)) == {}
  {
    PlainNamePasses(n.name);
    PlainNamePasses(n.lastName);
    PlainNamePasses(n.middleName);
  }

  lemma BadNamesFail()
    ensures ValidateProfileCreation(BadCreation) == {Name, LastName, MiddleName, AccountId, PhotoId}
    ensures ValidateProfileUpdate(BadUpdate) == {Name, LastName, MiddleName, PhotoId}
  {
    assert Utf16Length("m") == 1;
  }

  /** A patient born fifty years ago, linked to an account it references, is accepted. */
  lemma PatientCreationValidModel(n: Names, account: Guid, photo: Guid, currentYear: int, maxAge: int)
    requires PlainNames(n) && account != Empty && photo != Empty && maxAge >= 50
    ensures ValidatePatientCreation(
      PatientForCreation(GoodCreation(n, Some(account), photo), true, Date(currentYear - 50, 1, 1)),
      currentYear, maxAge) == {}
  {
    GoodNamesPass(n, Some(account), photo);
  }

  /**
    The all-invalid patient: every base property fails, the age is out of range, and the
    link flag left at `false` contradicts the (empty) account id that is present.
   */
  lemma PatientCreationInvalidModel(currentYear: int, maxAge: int)
    requires maxAge < 1024
    ensures ValidatePatientCreation(PatientForCreation(BadCreation, false, Date(currentYear - 1024, 1, 1)), currentYear, maxAge)
      == {Name, LastName, MiddleName, AccountId, PhotoId, IsLinkedToAccount, DateOfBirth}
  {
    BadNamesFail();
  }

  /** An account id with the link flag `false`, or no account id with the flag `true`: only the link rule fails. */
  lemma PatientCreationLinkMismatch(n: Names, account: Guid, photo: Guid, currentYear: int, maxAge: int)
    requires PlainNames(n) && account != Empty && photo != Empty && maxAge >= 50
    ensures ValidatePatientCreation(
      PatientForCreation(GoodCreation(n, Some(account), photo), false, Date(currentYear - 50, 1, 1)),
      currentYear, maxAge) == {IsLinkedToAccount}
    ensures ValidatePatientCreation(
      PatientForCreation(GoodCreation(n, None, photo), true, Date(currentYear - 50, 1, 1)),
      currentYear, maxAge) == {IsLinkedToAccount}
  {
    GoodNamesPass(n, Some(account), photo);
    GoodNamesPass(n, None, photo);
  }

  /**
    The link rule looks at presence only: an empty account id with the flag raised passes it,
    and the account rule alone reports the request.
   */
  lemma PatientCreationEmptyAccountLinked(n: Names, photo: Guid, currentYear: int, maxAge: int)
    requires PlainNames(n) && photo != Empty && maxAge >= 50
    ensures ValidatePatientCreation(
      PatientForCreation(GoodCreation(n, Some(Empty), photo), true, Date(currentYear - 50, 1, 1)),
      currentYear, maxAge) == {AccountId}
  {
    PlainNamePasses(n.name);
    PlainNamePasses(n.lastName);
    PlainNamePasses(n.middleName);
  }

  lemma ReceptionistCreationScenarios(n: Names, account: Guid, photo: Guid, office: Guid)
    requires PlainNames(n) && account != Empty && photo != Empty && office != Empty
    ensures ValidateReceptionistCreation(ReceptionistForCreation(GoodCreation(n, Some(account), photo), office)) == {}
    ensures ValidateReceptionistCreation(ReceptionistForCreation(BadCreation, Empty))
      == {Name, LastName, MiddleName, AccountId, PhotoId, OfficeId}
  {
    GoodNamesPass(n, Some(account), photo);
    BadNamesFail();
  }

  /** The valid doctor update test: born fifty years ago, career started twenty years ago. */
  lemma DoctorUpdateValidModel(n: Names, photo: Guid, specialization: Guid, office: Guid, currentYear: int)
    requires PlainNames(n) && photo != Empty && specialization != Empty && office != Empty
    ensures ValidateDoctorUpdate(DoctorForUpdate(GoodUpdate(n, photo), Date(currentYear - 50, 1, 1),
      specialization, office, currentYear - 20), currentYear) == {}
  {
    GoodNamesPass(n, None, photo);
  }

  /** The all-invalid doctor update test: every one of the eight properties is reported. */
  lemma DoctorUpdateInvalidModel(currentYear: int)
    ensures ValidateDoctorUpdate(DoctorForUpdate(BadUpdate, Date(currentYear - 1024, 1, 1),
      Empty, Empty, currentYear - 1024), currentYear)
      == {Name, LastName, MiddleName, PhotoId, DateOfBirth, SpecializationId, OfficeId, CareerStartYear}
  {
    BadNamesFail();
  }

  /** A career that would have started a year before birth fails the career rule alone. */
  lemma DoctorUpdateCareerBeforeBirth(n: Names, photo: Guid, specialization: Guid, office: Guid, currentYear: int)
    requires PlainNames(n) && photo != Empty && specialization != Empty && office != Empty
    ensures ValidateDoctorUpdate(DoctorForUpdate(GoodUpdate(n, photo), Date(currentYear - 50, 1, 1),
      specialization, office, currentYear - 51), currentYear) == {CareerStartYear}
  {
    GoodNamesPass(n, None, photo);
  }

  lemma PatientUpdateValidModel(n: Names, photo: Guid, currentYear: int)
    requires PlainNames(n) && photo != Empty
    ensures ValidatePatientUpdate(PatientForUpdate(GoodUpdate(n, photo), Date(currentYear - 50, 1, 1)), currentYear) == {}
  {
    GoodNamesPass(n, None, photo);
  }

  lemma ReceptionistUpdateScenarios(n: Names, photo: Guid, office: Guid)
    requires PlainNames(n) && photo != Empty && office != Empty
    ensures ValidateReceptionistUpdate(ReceptionistForUpdate(GoodUpdate(n, photo), office)) == {}
    ensures ValidateReceptionistUpdate(ReceptionistForUpdate(BadUpdate, Empty))
      == {Name, LastName, MiddleName, PhotoId, OfficeId}
  {
    GoodNamesPass(n, None, photo);
    BadNamesFail();
  }
}

=== FILE: service_results.dfy ===
/**
  How a service call ends. The services signal failure by throwing; the exception handler
  middleware turns a `ValidationException` into 400, a `ProfileNotFoundException` into 404 and
  a `DbUpdateException` (a refused commit) into 400. Here each is an error value instead.
 */
module ServiceResults {
  import opened Wrappers
  import opened Guids
  import opened Entities
  import opened Validation
  import opened ProfileStore

  datatype ServiceError =
    | ValidationFailed(fields: set<Field>)   // `ValidationException`, with the failing properties
    | NotFound(id: Guid)                     // `ProfileNotFoundException(id)`
    | Conflict(id: Guid)                     // `DbUpdateException` from `SaveChangesAsync`

  /** The store after a successful create, and the created profile the response is mapped from. */
  datatype Created = Created(store: Store, profile: Profile)

  /** `ValidateAndThrowCustom`: throws exactly when the violation set is not empty. */
  function Validate(violations: set<Field>): (r: Result<(), ServiceError>)
    ensures r.Success? <==> violations == {}
    ensures r.Failure? ==> r.error == ValidationFailed(violations)
  {
    if violations == {} then Success(()) else Failure(ValidationFailed(violations))
  }

  /** `SaveChangesAsync` after a repository change: a refused change surfaces as a conflict. */
  function Commit(r: Result<Store, StoreError>): (c: Result<Store, ServiceError>)
    ensures c.Success? <==> r.Success?
    ensures c.Success? ==> c.value == r.value
    ensures c.Failure? ==> c.error == Conflict(r.error.id)
  {
    match r
    case Success(s) => Success(s)
    case Failure(KeyConflict(id)) => Failure(Conflict(id))
  }
}

=== FILE: status_sync.dfy ===
/**
  The two message consumers that keep doctors' statuses in step with offices and
  specializations. Each takes an already-decoded `{Id, IsActive}` message, walks every
  doctor, and sets each doctor whose office (or specialization) is the message's id to
  `AtWork` when the message says active and to `Inactive` otherwise; then commits once.
 */
module StatusSync {
  import opened Wrappers
  import opened Guids
  import opened Entities
  import opened ProfileStore

  /** Which reference of a doctor a message is about. */
  datatype EventKey = ByOffice | BySpecialization

  /** An `OfficeStatusChanged` message (`ByOffice`) or a `Specialization` message (`BySpecialization`). */
  datatype StatusEvent = StatusEvent(key: EventKey, id: Guid, isActive: bool)

  /** The doctors a message touches: `doctor.OfficeId == Id`, or `doctor.SpecializationId == Id`. */
  predicate Matches(p: Profile, e: StatusEvent) {
    p.Doctor? &&
    match e.key
    case ByOffice => p.officeId == e.id
    case BySpecialization => p.specializationId == e.id
  }

  /** `IsActive ? DoctorStatus.AtWork : DoctorStatus.Inactive`. */
  function EventStatus(e: StatusEvent): DoctorStatus {
    if e.isActive then AtWork else Inactive
  }

  /** `q` is `p` with at most its status changed. */
  predicate SameButStatus(p: Profile, q: Profile) {
    p.Doctor? && q.Doctor? && WithStatus(p, q.status) == q
  }

  /** The effect of one message on one profile. */
  function ApplyTo(p: Profile, e: StatusEvent): Profile {
    if Matches(p, e) then WithStatus(p, EventStatus(e).Value()) else p
  }

  /** The effect of one message on the whole store. */
  function Apply(s: Store, e: StatusEvent): (r: Store)
    ensures r.Keys == s.Keys
    ensures forall id :: id in s && Matches(s[id], e) ==>
      SameButStatus(s[id], r[id]) && StatusOf(r[id].status) == Some(EventStatus(e))
    ensures forall id :: id in s && !Matches(s[id], e) ==> r[id] == s[id]
  {
    map id | id in s :: ApplyTo(s[id], e)
  }

  /**
    `Consume` / `HandleMessage`: fetch all doctors, update each matching one, commit. The
    order in which `GetAllAsync` lists the doctors is left open; every order gives `Apply`.
   */
  method ConsumeStatusEvent(s: Store, e: StatusEvent) returns (r: Store)
    requires WellKeyed(s)
    ensures r == Apply(s, e)
  {
    var doctors := GetAll(s, DoctorKind);
    var remaining := doctors.Keys;
    r := s;
    while remaining != {}
      invariant remaining <= doctors.Keys
      invariant r.Keys == s.Keys
      invariant forall id :: id in s ==> r[id] == if id in remaining then s[id] else ApplyTo(s[id], e)
      decreases remaining
    {
      var id :| id in remaining;
      var doctor := doctors[id];
      assert doctor == s[id] == r[id];
      if Matches(doctor, e) {
        var updated := WithStatus(doctor, EventStatus(e).Value());
        r := Update(r, updated).value;
      }
      remaining := remaining - {id};
    }
    assert forall id :: id in s ==> r[id] == Apply(s, e)[id];
  }

  /** Matching depends on the office and specialization only, which no message changes. */
  lemma ApplyKeepsMatches(s: Store, e: StatusEvent, f: StatusEvent)
    ensures forall id :: id in s ==> (Matches(Apply(s, e)[id], f) <==> Matches(s[id], f))
  {
  }

  /** Delivering the same message twice has the effect of delivering it once. */
  lemma ApplyIdempotent(s: Store, e: StatusEvent)
    ensures Apply(Apply(s, e), e) == Apply(s, e)
  {
    var once := Apply(s, e);
    ApplyKeepsMatches(s, e, e);
    forall id | id in once
      ensures Apply(once, e)[id] == once[id]
    {
      if Matches(s[id], e) {
        assert WithStatus(once[id], EventStatus(e).Value()) == once[id];
      }
    }
  }

  /** A message no doctor matches leaves the store as it was. */
  lemma ApplyWithoutMatch(s: Store, e: StatusEvent)
    requires forall id :: id in s ==> !Matches(s[id], e)
    ensures Apply(s, e) == s
  {
  }

  /**
    Two messages commute exactly when every doctor both of them match is sent to the same
    status by both.
   */
  lemma CommuteIff(s: Store, e: StatusEvent, f: StatusEvent)
    ensures Apply(Apply(s, e), f) == Apply(Apply(s, f), e)
      <==> forall id :: id in s && Matches(s[id], e) && Matches(s[id], f) ==> e.isActive == f.isActive
  {
    var ef, fe := Apply(Apply(s, e), f), Apply(Apply(s, f), e);
    ApplyKeepsMatches(s, e, f);
    ApplyKeepsMatches(s, f, e);
    if forall id :: id in s && Matches(s[id], e) && Matches(s[id], f) ==> e.isActive == f.isActive {
      forall id | id in s
        ensures ef[id] == fe[id]
      {
      }
    } else {
      var id :| id in s && Matches(s[id], e) && Matches(s[id], f) && e.isActive != f.isActive;
      assert ef[id].status == EventStatus(f).Value();
      assert fe[id].status == EventStatus(e).Value();
    }
  }

  /** Messages about two different offices (or two different specializations) always commute. */
  lemma DifferentIdsCommute(s: Store, e: StatusEvent, f: StatusEvent)
    requires e.key == f.key && e.id != f.id
    ensures Apply(Apply(s, e), f) == Apply(Apply(s, f), e)
  {
    CommuteIff(s, e, f);
  }

  /** When two messages hit the same doctor, the one delivered last decides its status. */
  lemma LastMessageWins(s: Store, e: StatusEvent, f: StatusEvent, id: Guid)
    requires id in s && Matches(s[id], e) && Matches(s[id], f)
    ensures StatusOf(Apply(Apply(s, e), f)[id].status) == Some(EventStatus(f))
  {
    ApplyKeepsMatches(s, e, f);
  }

  /** An office message and a specialization message that disagree do not commute on a doctor they share. */
  lemma OfficeAndSpecializationDoNotCommute(d: Profile)
    requires d.Doctor?
    ensures var s := map[d.id := d];
      var office := StatusEvent(ByOffice, d.officeId, true);
      var specialization := StatusEvent(BySpecialization, d.specializationId, false);
      Apply(Apply(s, office), specialization) != Apply(Apply(s, specialization), office)
  {
    var s := map[d.id := d];
    var office := StatusEvent(ByOffice, d.officeId, true);
    var specialization := StatusEvent(BySpecialization, d.specializationId, false);
    assert s[d.id] == d && Matches(d, office) && Matches(d, specialization);
    CommuteIff(s, office, specialization);
  }

  /** A message keeps every profile under its own id and changes no kind's count. */
  lemma ApplyKeepsStore(s: Store, e: StatusEvent, k: Kind)
    requires WellKeyed(s)
    ensures WellKeyed(Apply(s, e))
    ensures IdsOf(Apply(s, e), k) == IdsOf(s, k)
    ensures Count(Apply(s, e), k) == Count(s, k)
  {
    assert IdsOf(Apply(s, e), k) == IdsOf(s, k);
  }
}

=== FILE: text.dfy ===
/**
  Nullable strings and the FluentValidation string checks the profile validators use:
  `NotEmpty()`, `Length(min, max)` and `string.IsNullOrEmpty`.
 */
module Text {
  import opened Wrappers

  /** A C# `string` reference, which may be null. */
  type Text = Option<string>

  /** `char.IsWhiteSpace`: the Unicode space, line and paragraph separators plus the control whitespace characters. */
  predicate IsWhiteSpace(c: char) {
    || c == ' ' || ('\t' <= c <= '\r') || c == '\U{85}' || c == '\U{A0}' || c == '\U{1680}'
    || ('\U{2000}' <= c <= '\U{200A}') || c == '\U{2028}' || c == '\U{2029}' || c == '\U{202F}'
    || c == '\U{205F}' || c == '\U{3000}'
  }

  /** `string.Length`: the number of UTF-16 code units, so a character outside the BMP counts twice. */
  function Utf16Length(s: string): (n: nat)
    ensures |s| <= n <= 2 * |s|
  {
    if s == [] then 0
    else (if s[0] as int < 0x1_0000 then 1 else 2) + Utf16Length(s[1..])
  }

  /** Every character of `s` is whitespace (vacuously so for ""). */
  predicate AllWhiteSpace(s: string) {
    s == [] || (IsWhiteSpace(s[0]) && AllWhiteSpace(s[1..]))
  }

  /** `string.IsNullOrWhiteSpace`. */
  predicate IsNullOrWhiteSpace(t: Text) {
    t.None? || AllWhiteSpace(t.value)
  }

  /** `string.IsNullOrEmpty`. */
  predicate IsNullOrEmpty(t: Text) {
    t.None? || t.value == ""
  }

  /** FluentValidation `NotEmpty()` on a string: fails on null, "" and whitespace-only text. */
  predicate NotEmpty(t: Text) {
    !IsNullOrWhiteSpace(t)
  }

  /** FluentValidation `Length(min, max)`: null passes; otherwise the UTF-16 length must lie in [min, max]. */
  predicate LengthWithin(t: Text, min: nat, max: nat) {
    t.None? || min <= Utf16Length(t.value) <= max
  }
}

=== FILE: update_validators.dfy ===
/**
  The update-path validators: the base rule set of `ProfileUpdateDtoValidator` and the
  doctor, patient and receptionist layers on top of it. The clock is a parameter.

  The base validator sets `ClassLevelCascadeMode = CascadeMode.Stop`. The validators below
  report every failing rule, as the validator tests expect; `StopAtFirstFailureKeepsValidity`
  shows that stopping at the first failing rule accepts exactly the same requests, which is
  all the services look at.
 */
module UpdateValidators {
  import opened Wrappers
  import opened Guids
  import opened Text
  import opened Entities
  import opened Contracts
  import opened Validation
  import opened CreationValidators

  /** The oldest age the update path accepts is strictly below this many years. */
  const MaxUpdateAge: int := 130

  /** `Length(2, 1024).Unless(string.IsNullOrEmpty(name))`, the update rule on the middle name. */
  predicate UpdateMiddleNameFails(t: Text) {
    !IsNullOrEmpty(t) && !LengthWithin(t, 2, 1024)
  }

  /** `BeAValidAge` of the update path: born this year or in the 129 years before. */
  predicate BeAValidUpdateAge(d: Date, currentYear: int) {
    d.year <= currentYear && d.year > currentYear - MaxUpdateAge
  }

  /** The four rules of `ProfileUpdateDtoValidator`, in declaration order. */
  function ProfileUpdateRules(p: ProfileForUpdate): seq<RuleOutcome> {
    [ RuleOutcome(Name, RequiredNameFails(p.name)),
      RuleOutcome(LastName, RequiredNameFails(p.lastName)),
      RuleOutcome(MiddleName, UpdateMiddleNameFails(p.middleName)),
      RuleOutcome(PhotoId, OptionalGuidFails(p.photoId)) ]
  }

  function ValidateProfileUpdate(p: ProfileForUpdate): (r: set<Field>)
    ensures Name in r <==> p.name.None? || IsNullOrWhiteSpace(p.name) || !(2 <= Utf16Length(p.name.value) <= 1024)
    ensures LastName in r <==> p.lastName.None? || IsNullOrWhiteSpace(p.lastName) || !(2 <= Utf16Length(p.lastName.value) <= 1024)
    ensures MiddleName in r <==> p.middleName.Some? && p.middleName.value != "" && !(2 <= Utf16Length(p.middleName.value) <= 1024)
    ensures PhotoId in r <==> p.photoId == Some(Empty)
    ensures r <= {Name, LastName, MiddleName, PhotoId}
  {
    var rules := ProfileUpdateRules(p);
    ViolatedIff(rules, 0);
    ViolatedIff(rules, 1);
    ViolatedIff(rules, 2);
    ViolatedIff(rules, 3);
    ViolationsNamed(rules);
    Violations(rules)
  }

  /** The base validator is exactly its rule list, and reports only base fields. */
  lemma ProfileUpdateIsRules(p: ProfileForUpdate)
    ensures ValidateProfileUpdate(p) == Violations(ProfileUpdateRules(p))
    ensures Violations(ProfileUpdateRules(p)) <= {Name, LastName, MiddleName, PhotoId}
  {
  }

  /** The rules `DoctorUpdateDtoValidator` adds: age, the two references, and the career start. */
  function DoctorUpdateRules(dto: DoctorForUpdate, currentYear: int): seq<RuleOutcome> {
    [ RuleOutcome(DateOfBirth, !BeAValidUpdateAge(dto.dateOfBirth, currentYear)),
      RuleOutcome(SpecializationId, !ValidateGuid(dto.specializationId)),
      RuleOutcome(OfficeId, !ValidateGuid(dto.officeId)),
      RuleOutcome(CareerStartYear, dto.careerStartYear < dto.dateOfBirth.year + 18) ]
  }

  /** What the doctor rules report on their own. */
  lemma DoctorUpdateLayer(dto: DoctorForUpdate, currentYear: int)
    ensures var added := Violations(DoctorUpdateRules(dto, currentYear));
      && (DateOfBirth in added <==> !BeAValidUpdateAge(dto.dateOfBirth, currentYear))
      && (SpecializationId in added <==> dto.specializationId == Empty)
      && (OfficeId in added <==> dto.officeId == Empty)
      && (CareerStartYear in added <==> dto.careerStartYear < dto.dateOfBirth.year + 18)
      && added <= {DateOfBirth, SpecializationId, OfficeId, CareerStartYear}
  {
    var layer := DoctorUpdateRules(dto, currentYear);
    ViolatedIff(layer, 0);
    ViolatedIff(layer, 1);
    ViolatedIff(layer, 2);
    ViolatedIff(layer, 3);
    ViolationsNamed(layer);
    assert Fields(layer) == {DateOfBirth, SpecializationId, OfficeId, CareerStartYear};
  }

  /** `DoctorUpdateDtoValidator`: the base rules followed by the doctor rules. */
  function ValidateDoctorUpdate(dto: DoctorForUpdate, currentYear: int): (r: set<Field>)
    ensures DateOfBirth in r <==> !(currentYear - MaxUpdateAge < dto.dateOfBirth.year <= currentYear)
    ensures SpecializationId in r <==> dto.specializationId == Empty
    ensures OfficeId in r <==> dto.officeId == Empty
    ensures CareerStartYear in r <==> dto.careerStartYear < dto.dateOfBirth.year + 18
    ensures r - {DateOfBirth, SpecializationId, OfficeId, CareerStartYear} == ValidateProfileUpdate(dto.profile)
  {
    var rules := ProfileUpdateRules(dto.profile);
    var layer := DoctorUpdateRules(dto, currentYear);
    DoctorUpdateLayer(dto, currentYear);
    ProfileUpdateIsRules(dto.profile);
    LayeredViolations(rules, layer, {DateOfBirth, SpecializationId, OfficeId, CareerStartYear});
    Violations(rules + layer)
  }

  /** The rule `PatientUpdateDtoValidator` adds: the age rule. */
  function PatientUpdateRules(dto: PatientForUpdate, currentYear: int): seq<RuleOutcome> {
    [ RuleOutcome(DateOfBirth, !BeAValidUpdateAge(dto.dateOfBirth, currentYear)) ]
  }

  lemma PatientUpdateLayer(dto: PatientForUpdate, currentYear: int)
    ensures Violations(PatientUpdateRules(dto, currentYear))
      == if BeAValidUpdateAge(dto.dateOfBirth, currentYear) then {} else {DateOfBirth}
  {
    assert PatientUpdateRules(dto, currentYear)[1..] == [];
  }

  /** `PatientUpdateDtoValidator`: the base rules followed by the age rule. */
  function ValidatePatientUpdate(dto: PatientForUpdate, currentYear: int): (r: set<Field>)
    ensures DateOfBirth in r <==> !(currentYear - MaxUpdateAge < dto.dateOfBirth.year <= currentYear)
    ensures r - {DateOfBirth} == ValidateProfileUpdate(dto.profile)
  {
    var rules := ProfileUpdateRules(dto.profile);
    var layer := PatientUpdateRules(dto, currentYear);
    PatientUpdateLayer(dto, currentYear);
    ProfileUpdateIsRules(dto.profile);
    LayeredViolations(rules, layer, {DateOfBirth});
    Violations(rules + layer)
  }

  /** The rule `ReceptionistUpdateDtoValidator` adds: `NotNull().Must(ValidateGuid)` on the office. */
  function ReceptionistUpdateRules(dto: ReceptionistForUpdate): seq<RuleOutcome> {
    [ RuleOutcome(OfficeId, !ValidateGuid(dto.officeId)) ]
  }

  lemma ReceptionistUpdateLayer(dto: ReceptionistForUpdate)
    ensures Violations(ReceptionistUpdateRules(dto)) == if dto.officeId == Empty then {OfficeId} else {}
  {
    assert ReceptionistUpdateRules(dto)[1..] == [];
  }

  /** `ReceptionistUpdateDtoValidator`: the base rules followed by the office rule. */
  function ValidateReceptionistUpdate(dto: ReceptionistForUpdate): (r: set<Field>)
    ensures OfficeId in r <==> dto.officeId == Empty
    ensures r - {OfficeId} == ValidateProfileUpdate(dto.profile)
  {
    var rules := ProfileUpdateRules(dto.profile);
    var layer := ReceptionistUpdateRules(dto);
    ReceptionistUpdateLayer(dto);
    ProfileUpdateIsRules(dto.profile);
    LayeredViolations(rules, layer, {OfficeId});
    Violations(rules + layer)
  }

  /**
    Under `CascadeMode.Stop` each update validator reports at most its first failing rule,
    and it accepts a request exactly when the full evaluation above does.
   */
  lemma StopAtFirstFailureKeepsValidity(dto: DoctorForUpdate, p: PatientForUpdate, rc: ReceptionistForUpdate, currentYear: int)
    ensures var stopped := FirstFailure(ProfileUpdateRules(dto.profile) + DoctorUpdateRules(dto, currentYear));
      stopped <= ValidateDoctorUpdate(dto, currentYear) && (stopped == {} <==> ValidateDoctorUpdate(dto, currentYear) == {})
    ensures var stopped := FirstFailure(ProfileUpdateRules(p.profile) + PatientUpdateRules(p, currentYear));
      stopped <= ValidatePatientUpdate(p, currentYear) && (stopped == {} <==> ValidatePatientUpdate(p, currentYear) == {})
    ensures var stopped := FirstFailure(ProfileUpdateRules(rc.profile) + ReceptionistUpdateRules(rc));
      stopped <= ValidateReceptionistUpdate(rc) && (stopped == {} <==> ValidateReceptionistUpdate(rc) == {})
  {
    CascadeModeKeepsValidity(ProfileUpdateRules(dto.profile) + DoctorUpdateRules(dto, currentYear));
    CascadeModeKeepsValidity(ProfileUpdateRules(p.profile) + PatientUpdateRules(p, currentYear));
    CascadeModeKeepsValidity(ProfileUpdateRules(rc.profile) + ReceptionistUpdateRules(rc));
  }

  /**
    Where the two paths differ. An empty middle name is rejected on creation and accepted on
    update; a person exactly `MaxUpdateAge` years old passes the creation age rule when
    `AllowedAge.Max` is at least that, but never the update age rule.
   */
  lemma CreationAndUpdateDiffer(currentYear: int, maxAge: int)
    requires maxAge >= MaxUpdateAge
    ensures MiddleNameFails(Some(""))
    ensures !UpdateMiddleNameFails(Some(""))
    ensures BeAValidAge(Date(currentYear - MaxUpdateAge, 1, 1), currentYear, maxAge)
    ensures !BeAValidUpdateAge(Date(currentYear - MaxUpdateAge, 1, 1), currentYear)
  {
    assert Utf16Length("") == 0;
  }

  /** The two middle-name rules disagree on the empty string and nowhere else. */
  lemma MiddleNameRulesAgreeExceptEmpty(t: Text)
    ensures MiddleNameFails(t) <==> UpdateMiddleNameFails(t) || t == Some("")
  {
    if t == Some("") {
      assert Utf16Length("") == 0;
    }
  }

  /** The update age window lies inside the creation one whenever `AllowedAge.Max` is at least 129. */
  lemma UpdateAgeWithinCreationAge(d: Date, currentYear: int, maxAge: int)
    requires maxAge >= MaxUpdateAge - 1
    ensures BeAValidUpdateAge(d, currentYear) ==> BeAValidAge(d, currentYear, maxAge)
  {
  }
}

=== FILE: validation.dfy ===
/**
  The shape of a FluentValidation result: each `RuleFor` of a validator, in declaration
  order, either passes or fails for the property it names. Violations are reported as the
  set of failing property names; error codes and messages are not modelled.
 */
module Validation {

  /** The properties the profile validators put rules on. */
  datatype Field =
    | Name | LastName | MiddleName | AccountId | PhotoId | IsLinkedToAccount
    | DateOfBirth | SpecializationId | OfficeId | CareerStartYear

  /** The outcome of one `RuleFor(...)` chain on one input. */
  datatype RuleOutcome = RuleOutcome(field: Field, fails: bool)

  /**
    Every rule is evaluated and every failure reported (the default cascade mode, and what
    the validator tests assert): the set of properties whose rule failed.
   */
  function Violations(rules: seq<RuleOutcome>): set<Field> {
    if rules == [] then {}
    else (if rules[0].fails then {rules[0].field} else {}) + Violations(rules[1..])
  }

  /** The properties that some rule names. */
  function Fields(rules: seq<RuleOutcome>): set<Field> {
    set i | 0 <= i < |rules| :: rules[i].field
  }

  /** Only properties some rule names can be violated. */
  lemma {:induction false} ViolationsNamed(rules: seq<RuleOutcome>)
    ensures Violations(rules) <= Fields(rules)
  {
    if rules != [] {
      ViolationsNamed(rules[1..]);
      forall f | f in Fields(rules[1..])
        ensures f in Fields(rules)
      {
        var i :| 0 <= i < |rules[1..]| && rules[1..][i].field == f;
        assert rules[i + 1].field == f;
      }
      assert rules[0].field in Fields(rules);
    }
  }

  /** A property named by exactly one rule is violated iff that rule fails. */
  lemma {:induction false} ViolatedIff(rules: seq<RuleOutcome>, i: nat)
    requires i < |rules|
    requires forall j :: 0 <= j < |rules| && j != i ==> rules[j].field != rules[i].field
    ensures rules[i].field in Violations(rules) <==> rules[i].fails
  {
    var f := rules[i].field;
    if i == 0 {
      assert f !in Fields(rules[1..]);
      ViolationsNamed(rules[1..]);
    } else {
      assert rules[1..][i - 1] == rules[i];
      ViolatedIff(rules[1..], i - 1);
    }
  }

  /**
    `ClassLevelCascadeMode = CascadeMode.Stop`: evaluation stops at the first failing rule,
    so at most that rule's property is reported.
   */
  function FirstFailure(rules: seq<RuleOutcome>): (r: set<Field>)
    ensures |r| <= 1
  {
    if rules == [] then {}
    else if rules[0].fails then {rules[0].field}
    else FirstFailure(rules[1..])
  }

  /**
    Validity does not depend on the cascade mode: stopping at the first failure reports a
    subset of the full result, and it is empty exactly when the full result is.
   */
  lemma {:induction false} CascadeModeKeepsValidity(rules: seq<RuleOutcome>)
    ensures FirstFailure(rules) <= Violations(rules)
    ensures FirstFailure(rules) == {} <==> Violations(rules) == {}
  {
    if rules != [] {
      CascadeModeKeepsValidity(rules[1..]);
    }
  }

  /** Appending a validator's rules to a base validator's rules unions their violations. */
  lemma {:induction false} ViolationsOfLayers(base: seq<RuleOutcome>, layer: seq<RuleOutcome>)
    ensures Violations(base + layer) == Violations(base) + Violations(layer)
  {
    if base != [] {
      assert (base + layer)[1..] == base[1..] + layer;
      ViolationsOfLayers(base[1..], layer);
    } else {
      assert base + layer == layer;
    }
  }

  /**
    A layer whose rules name properties the base never names: on the layer's properties the
    layered validator reports what the layer reports, and elsewhere what the base reports.
   */
  lemma LayeredViolations(base: seq<RuleOutcome>, layer: seq<RuleOutcome>, layerFields: set<Field>)
    requires Violations(layer) <= layerFields
    requires Violations(base) !! layerFields
    ensures forall f :: f in layerFields ==> (f in Violations(base + layer) <==> f in Violations(layer))
    ensures Violations(base + layer) - layerFields == Violations(base)
  {
    ViolationsOfLayers(base, layer);
  }
}

=== FILE: wrappers.dfy ===
/** Option and Result types used in place of C# null references and exceptions. */
module Wrappers {

  /** A nullable value: `None` stands for C#'s `null`. */
  datatype Option<+T> = None | Some(value: T)

  /** The outcome of an operation that either succeeds with a value or fails with an error. */
  datatype Result<+R, +E> = Success(value: R) | Failure(error: E) {

    predicate IsFailure() {
      Failure?
    }

    function PropagateFailure<U>(): Result<U, E>
      requires Failure?
    {
      Failure(error)
    }

    function Extract(): R
      requires Success?
    {
      value
    }
  }
}
